=== FILE: README.md ===
# Tens container, modelled in Dafny

Tens is a small binary format for storing one tensor in a file. It is
defined by `tens.py`, which has two parts.

- **The `DataType` registry.** It is a fixed table of rows `(code, numpy
  dtype name, struct format, declared width)`. `get_data_dtype` searches it by
  code and `get_tensor_type` searches it by dtype name.
- **The codec.** `save` writes the fields below one after another, and
  `load` reads them back with a cursor:
  - the magic `"Cc"`;
  - the type code as a little-endian uint16;
  - the dimension count `n` as a uint32;
  - the `n` dimension sizes as uint32;
  - the elements in flat order, each packed with the type's struct format.

The model works on byte sequences, not files. It has these modules:

- `Bytes`: octets and little-endian layout.
- `Results`: the error values and the `Result`/`Outcome` types.
- `Struct`: the part of Python's `struct` module the format uses. This is the
  format letters under the `'<'` prefix, their standard sizes, and `pack` and
  `unpack`. The signed formats use two's complement, and `'?'` reads any
  non-zero byte as true.
- `DataType`: the registry and its two lookups.
- `Codec`: `Decode` and `Encode` specify load and save as functions. `Load`,
  `ReadHeader`, `ReadBody`, `ReadShape`, `ReadElements`, `Save` and
  `WriteLoop` are the step-by-step procedures of `tens.py`: a read cursor, a
  running product, a preallocated element array, and appends to the output
  buffer. Each one is proved to compute its function.
- `LoadProperties`, `SaveProperties` and `RoundTrip`: what load accepts and
  rejects, what save writes, and load after save.

The model exposes these behaviours of the code:

- **int64 and uint64.** These rows declare width 8, but their formats `'<l'`
  and `'<L'` pack 4 bytes. `save` writes 4 bytes per element. `load` reads 8
  bytes per element, and `struct.unpack` refuses a buffer of the wrong length.
  - A saved tensor with two or more elements fails to load with
    `WidthMismatch` (`RoundTrip.LongKindsBreakRoundTrip`).
  - A tensor with one element does come back, because the last `f.read(8)`
    stops at the end of the file after 4 bytes (`RoundTrip.RoundTrip`).
  - A saved file cut short still fails to load, with `Truncated` or
    `WidthMismatch` (`RoundTrip.TruncatedFileFails`).
- **Unknown dtype in `save`.** For a dtype the registry does not know,
  `get_tensor_type` falls through to the unqualified name `SPECIAL` (tens.py:58).
  That name is not defined, so the call raises a `NameError` (error
  `NameUndefined`) instead of returning the sentinel.
- **Tensors with no elements.** `save` visits the elements with `np.nditer`
  (tens.py:131), which raises `ValueError` for an array of size 0. A tensor
  with a zero dimension therefore fails (error `EmptyIteration`) after its
  header and dimensions are written. That partial file loads back as the empty
  tensor (`RoundTrip.EmptySaveLoads`).
- **Magic before the type check.** `save` writes `"Cc"` before it looks up
  the type, so a failed save leaves those two bytes in the file.
- **Layout comment.** The comment at tens.py:4-12 numbers the dimensions
  from 0 to `n`, so its `0x000C + 4 * n` for element 0 is the offset
  `8 + 4 * count` the code uses. Only its end offset `0x0008 + 4 * n + s * e`
  (tens.py:12) is 4 bytes short of what the code writes. For example, a
  one-dimensional int32 tensor of three elements is 24 bytes long
  (`RoundTrip.Int32Example`).

How the model represents values:

- A tensor is its dtype name, its shape and its elements in row-major order.
- An element is an integer, an opaque bit pattern (for floats) or a truth
  value.
- Integers are exact and unbounded. Every range limit of `struct.pack`
  (uint16, uint32, the 1- and 4-byte signed formats) is written out, and a
  value outside its range fails with `OutOfRange`.

## Model

| member | source | states |
|---|---|---|
| Bytes.FromLE | tens.py:3 | the little-endian value of n bytes is below 256^n |
| Bytes.LE | tens.py:3 | the n-byte little-endian layout of v has n bytes and reads back as v |
| Bytes.LEOfFromLE | tens.py:3 | every byte string is the layout of the value it reads as (the other half of the LE/FromLE inverse) |
| Struct.Pack | tens.py:121-132 | struct.pack succeeds exactly when the value is in the format's range, gives Size(f) bytes, and otherwise fails with OutOfRange |
| Struct.Unpack | tens.py:101 | struct.unpack succeeds exactly when the buffer has the format's size; a shorter buffer is Truncated, a longer one WidthMismatch; the result is in range |
| Struct.UnpackOfPack | tens.py:101-132 | unpacking packed bytes gives the value back |
| Struct.PackOfUnpack | tens.py:101-132 | packing unpacked bytes gives the same bytes back, except that '?' normalises every non-zero byte to 0x01 |
| Struct.Size | tens.py:25-33 | each format letter's standard size under '<' is between 1 and 8 bytes (that 'l' and 'L' take 4 is stated by DataType.WidthsAgreeExceptLong) |
| DataType.AllCodes | tens.py:24-46 | ALL has nine rows, carrying codes 1 to 9 in order |
| DataType.Code | tens.py:24-33 | the type codes run from 0 to 9, and only SPECIAL has code 0 |
| DataType.Name | tens.py:24-33 | only SPECIAL has the empty dtype name |
| DataType.StructFormat | tens.py:25-33 | a row's struct format never packs more than its declared width, and no row uses the header's '<H' |
| DataType.Width | tens.py:24-33 | only SPECIAL declares width 0; every other row declares 1, 4 or 8 bytes |
| DataType.FindCode | tens.py:64-69 | the early-return search by code returns a row of the table with that code, or SPECIAL only when no row has it |
| DataType.GetDataDtype | tens.py:61-69 | get_data_dtype(c) is row c of ALL for c in 1..9 and SPECIAL for every other code |
| DataType.FindName | tens.py:53-58 | the search by dtype name returns a row with that name, or fails with NameUndefined only when no row has it |
| DataType.GetTensorType | tens.py:50-58 | get_tensor_type returns a non-SPECIAL row of ALL carrying the tensor's dtype name, and fails with NameUndefined exactly when no row has that name |
| DataType.CodesDistinct | tens.py:24-46 | the codes of ALL are pairwise distinct, and none is SPECIAL's 0 |
| DataType.RegistryInverse | tens.py:50-69 | looking up a row by its own code, or by its own dtype name, gives that row back |
| DataType.NamesDistinct | tens.py:24-33 | no two rows share a dtype name |
| DataType.WidthsAgreeExceptLong | tens.py:29-32 | the declared width equals the struct format's size for every row except int64 and uint64, which declare 8 and pack 4 |
| Codec.Read | tens.py:77-101 | f.read(n) at the cursor returns n bytes when they are all there and fewer at the end of the input |
| Codec.ReadUInt | tens.py:82-93 | unpacking '<H' or '<I' from a read succeeds exactly when the bytes are there, giving a value below 256^n, and otherwise fails with Truncated |
| Codec.DecodeShape | tens.py:90-95 | the shape loop yields one uint32 per remaining dimension after those already read, or fails with Truncated |
| Codec.DecodeValues | tens.py:99-102 | the element loop yields one in-range element per remaining read after those already read, or fails with Truncated or WidthMismatch |
| Codec.DecodeHeader | tens.py:76-87 | the header load yields a registered type and a uint32 dimension count, or fails with BadMagic, UnsupportedType or Truncated |
| Codec.Decode | tens.py:73-106 | a successful load has Product(shape) elements, uint32 dimensions and a registered dtype; it never fails with a save-side error |
| Codec.DecodeBody | tens.py:89-104 | after the header, a successful load has Product(shape) elements of the header's type; otherwise it fails with Truncated or WidthMismatch |
| Codec.Product | tens.py:91-95 | the running size is 1 for an empty shape and 0 exactly when some dimension is 0 |
| Codec.Encode | tens.py:110-132 | a failed save ends with NameUndefined, OutOfRange or EmptyIteration, never with a load-side error |
| Codec.WriteAll | tens.py:127-132 | a packing loop only appends to the file, passes exactly when every remaining value fits, and otherwise fails with OutOfRange |
| Codec.ReadShape | tens.py:90-95 | the cursor loop over the dimensions computes DecodeShape, and its running size is the product of the shape it read |
| Codec.ReadElements | tens.py:99-102 | filling the preallocated array element by element computes DecodeValues |
| Codec.Load | tens.py:73-106 | load over the bytes of a file computes Decode |
| Codec.ReadHeader | tens.py:76-87 | reading the magic, the type code and the dimension count with a cursor computes DecodeHeader |
| Codec.ReadBody | tens.py:89-104 | the shape loop from offset 8 followed by the element loop computes DecodeBody |
| Codec.Save | tens.py:110-132 | save, appending each field to an initially empty buffer, computes Encode: its bytes and its outcome, including the EmptyIteration failure of np.nditer on a tensor with no elements |
| Codec.WriteLoop | tens.py:127-132 | the dimension loop and the element loop of save compute WriteAll |
| LoadProperties.BadMagicIff | tens.py:77-79 | load fails with BadMagic exactly when the input is shorter than 2 bytes or does not start with "Cc" |
| LoadProperties.UnsupportedTypeIff | tens.py:82-84 | with the magic and the code present, load fails with UnsupportedType exactly when the code is 0 or above 9 |
| LoadProperties.ShapeOkIff | tens.py:92-93 | the shape loop succeeds exactly when all its uint32 fields are in the input |
| LoadProperties.ValuesOkIff | tens.py:100-101 | when the format unpacks the declared width, the element loop succeeds exactly when all the elements are in the input, and otherwise fails with Truncated |
| LoadProperties.ShapeLocal | tens.py:92-95 | the shape loop looks at nothing past its last field |
| LoadProperties.ValuesLocal | tens.py:100-102 | the element loop looks at nothing past its last read |
| LoadProperties.HeaderOkIff | tens.py:76-87 | the header loads as (kind, n) exactly when the input has 8 bytes, starts with "Cc", then holds kind's code and n |
| LoadProperties.DecodeOkParts | tens.py:73-106 | a successful load read a registered type code and as many dimensions as the shape has, then the body |
| LoadProperties.HeaderLocal | tens.py:76-87 | the header load looks at the first eight bytes only |
| LoadProperties.BodyLength | tens.py:89-102 | a successful body load of a type whose format packs its declared width w has 8 + 4n + size*w bytes in the input |
| LoadProperties.BodyLocal | tens.py:89-102 | for a type whose format packs its declared width, the body load gives the same tensor on any input that agrees on its first 8 + 4n + size*w bytes |
| LoadProperties.PrefixLoads | tens.py:73-102 | for a type whose format packs its declared width, the bytes a successful load consumes, followed by anything, load as the same header and body |
| LoadProperties.TrailingBytesIgnored | tens.py:73-106 | a successful load consumes exactly 8 + 4n + size*w bytes: those bytes, followed by any others, load as the same tensor |
| LoadProperties.HeaderTruncated | tens.py:82-87 | an input cut inside the header (after the magic) fails with UnsupportedType when the code is present and bad, and with Truncated otherwise |
| LoadProperties.ShapeTruncated | tens.py:92-93 | a good header followed by fewer than n dimension fields fails with Truncated |
| LoadProperties.PayloadIff | tens.py:99-101 | when the read width is the format's size, the element loop at offset 8 + 4n succeeds exactly when size*w bytes follow the shape, and otherwise fails with Truncated |
| LoadProperties.BodyTruncatedIff | tens.py:89-102 | for a type whose format packs its declared width, the body load succeeds exactly when all the elements are in the input, and otherwise fails with Truncated |
| LoadProperties.ValuesTruncatedIff | tens.py:87-102 | with header and shape read, load succeeds exactly when 8 + 4n + size*w bytes are present, and otherwise fails with Truncated |
| SaveProperties.PackedLength | tens.py:131-132 | every packed value takes Size(f) bytes |
| SaveProperties.WriteAllPacked | tens.py:127-132 | a packing loop over values that all fit appends exactly their packed bytes, in order, and passes |
| SaveProperties.WriteAllStops | tens.py:127-132 | a packing loop stops at the first value out of range: the file keeps the values before it, and the save fails with OutOfRange |
| SaveProperties.PackUInt | tens.py:124-128 | struct.pack('<I', v) is the 4-byte little-endian v |
| SaveProperties.DimsFitIff | tens.py:127-128 | every dimension packs as '<I' exactly when all of them are below 2^32 |
| SaveProperties.EncodeSucceedsIff | tens.py:110-132 | save succeeds exactly when the dtype is registered, the dimension count and every dimension fit a uint32, the tensor has at least one element, and every element fits the format; an unknown dtype fails with NameUndefined, an empty tensor whose dimensions fit with EmptyIteration, anything else with OutOfRange |
| SaveProperties.EncodeStartsWithMagic | tens.py:114 | whatever happens later, the file starts with "Cc" |
| SaveProperties.UnknownDtypeLeavesMagic | tens.py:114-119 | the dtype is unknown exactly when save leaves just "Cc" in the file and fails with NameUndefined |
| SaveProperties.EncodeEmptyLayout | tens.py:114-131 | a save that fails with EmptyIteration wrote the magic, the uint16 code, the uint32 count and each uint32 dimension, and one dimension is 0 |
| SaveProperties.EncodeLayout | tens.py:114-132 | a complete save writes "Cc", the uint16 code, the uint32 count, each uint32 dimension in order, then each element packed in order |
| SaveProperties.LayoutLength | tens.py:114-132 | that layout takes 8 + 4n + size*s bytes, with s the size of the struct format |
| SaveProperties.EncodeLength | tens.py:114-132 | a complete save is 8 + 4n + size*s bytes long, with s the format's size: 4 for int64 and uint64, not their declared 8 |
| RoundTrip.ShapeReads | tens.py:92-95 | the shape loop reading packed uint32 dimensions gives the dimensions back |
| RoundTrip.ValuesReads | tens.py:100-102 | the element loop reading values packed at the read width gives the values back |
| RoundTrip.ShapeReadAll | tens.py:90-95 | the packed dimensions read from offset 8 give the shape back, and take 4 bytes each |
| RoundTrip.ValuesReadAll | tens.py:99-102 | the packed elements read at their format's width give all the values back |
| RoundTrip.LastValueShort | tens.py:101 | a read longer than the format that meets the end of the input after one packed value returns just that value, which unpacks |
| RoundTrip.LayoutParts | tens.py:114-132 | a saved file holds the 8-byte header, then the packed dimensions, then the packed elements |
| RoundTrip.LayoutHeader | tens.py:76-87 | the header of a saved file, followed by anything, loads as the tensor's type and dimension count |
| RoundTrip.LayoutShape | tens.py:90-95 | the shape of a saved file loads back, and its elements sit at offset 8 + 4n |
| RoundTrip.ElementsRead | tens.py:99-102 | the element loop gives the packed values back at their format's width, or at a larger width when at most one value ends the input |
| RoundTrip.KindElementsRead | tens.py:101 | the same, with each row's struct format and declared width |
| RoundTrip.DecodeOfParts | tens.py:89-104 | load returns t from t's header and shape followed by t's packed elements at offset 8 + 4n |
| RoundTrip.DecodeOfPieces | tens.py:76-104 | load returns t from the magic, code, count, packed dimensions and packed elements of t, in order |
| RoundTrip.DecodeOfLayout | tens.py:73-106 | any input starting with t's saved file loads as t when the widths agree; the exact file loads as t when they do not but t has at most one element |
| RoundTrip.RoundTrip | tens.py:73-132 | load(save(t)) == t for every type whose format packs its declared width (codes 1, 2, 3, 4, 6, 7, 9), and for int64 and uint64 when t has one element |
| RoundTrip.RoundTripWithTrailing | tens.py:73-132 | for those types, bytes appended after the saved file do not change what loads |
| RoundTrip.WideReadFails | tens.py:101 | an element loop whose first read gets more bytes than its format packs fails with WidthMismatch, whether the read is complete or meets the end of the input |
| RoundTrip.LongKindsBreakRoundTrip | tens.py:99-102 | an int64 or uint64 tensor of two or more elements does not come back: load fails with WidthMismatch |
| RoundTrip.LayoutWideMismatch | tens.py:99-102 | an input starting with the saved layout of an int64 or uint64 tensor fails to load with WidthMismatch when the tensor has two or more elements, or when any byte follows the layout |
| RoundTrip.WideTrailingFails | tens.py:73-132 | bytes appended after a saved int64 or uint64 file, of any number of elements, make load fail with WidthMismatch |
| RoundTrip.HeaderCut | tens.py:77-87 | a saved file cut inside its header, after the magic, fails with Truncated |
| RoundTrip.CutAfterHeader | tens.py:92-101 | for a type whose format packs its declared width, an input of exactly header + dimensions + elements, cut anywhere after the header, fails with Truncated |
| RoundTrip.BodyCut | tens.py:92-101 | for a type whose format packs its declared width, a saved file cut after its header fails with Truncated |
| RoundTrip.TruncatedFileRejected | tens.py:77-101 | for a type whose format packs its declared width, every proper prefix of a saved file fails to load: with BadMagic below 2 bytes, with Truncated otherwise |
| RoundTrip.WideValuesOk | tens.py:100-101 | with reads wider than the format, the element loop succeeds only when a single value ends the input |
| RoundTrip.WidePayloadFails | tens.py:100-101 | with reads wider than the format, an element loop over fewer bytes than the values need fails |
| RoundTrip.WideBodyFails | tens.py:92-101 | for int64 and uint64, a body cut before the end of its 4-byte elements fails to load |
| RoundTrip.WideBodyMismatch | tens.py:99-101 | for int64 and uint64, a body with an element to read and more than 4 bytes after the shape fails with WidthMismatch |
| RoundTrip.CutAfterHeaderWide | tens.py:92-101 | for int64 and uint64, an input of exactly header + dimensions + 4-byte elements, cut after the header, fails with Truncated or WidthMismatch |
| RoundTrip.BodyCutWide | tens.py:92-101 | for int64 and uint64, a saved file cut after its header fails with Truncated or WidthMismatch |
| RoundTrip.TruncatedFileFails | tens.py:77-101 | for every type, every proper prefix of a saved file fails to load: with BadMagic below 2 bytes, with Truncated or WidthMismatch otherwise |
| RoundTrip.EmptySaveLoads | tens.py:73-132 | the partial file of a save that fails on a tensor with no elements loads back as that tensor |
| RoundTrip.SampleEncodes | tens.py:110-132 | save writes the 24-byte file of the int32 tensor [1, -2, 3] and passes |
| RoundTrip.Int32RoundTrip | tens.py:73-132 | the round trip for int32, whose '<i' packs the declared 4 bytes |
| RoundTrip.Int32Example | tens.py:73-132 | save writes those 24 bytes for [1, -2, 3], and load reads the tensor back from them |

## Left out

- File handling: `open`, `with`, closing and the file position are not modelled. `load` reads from a byte sequence and `save` returns the bytes written and the outcome.
- numpy: a tensor is a dtype name, a shape and a flat element sequence in row-major order. Matching `t[1] == tensor.dtype` is plain string equality. `np.empty` and numpy scalar types are not modelled. Two numpy behaviours are lost:
  - `np.nditer` visits elements in memory order (order 'K'), while load fills them in C order. A non-C-contiguous array (a transpose, say) is saved in a different order than it loads back; the model assumes the saved elements are already in row-major order.
  - The reshape `tensor.shape = shape` (tens.py:104) raises when the dimension count is above numpy's limit (32, or 64 in numpy 2). `Decode` returns Ok for such a file.
- A `MemoryError` from `np.empty` on a huge size is not modelled: load then only reads elements.
- IEEE-754: float32 and float64 elements are opaque 4- and 8-byte bit patterns. What `struct.pack` does with NaN payloads and rounding is not modelled.
- Python exception classes and messages are replaced by the seven values of `Results.Error`.
- An element whose kind does not match the format (an integer given to `'<f'`, say) counts as out of range. numpy never produces such a tensor, and Python's own coercions are not modelled.
- LoadProperties.TrailingBytesIgnored: stated only for types whose format packs the declared width. For int64 and uint64 the last 8-byte read takes trailing bytes, and `RoundTrip.WideTrailingFails` proves that load then fails with WidthMismatch.
- LoadProperties.ValuesTruncatedIff: stated only for types whose format packs the declared width. For int64 and uint64, `RoundTrip.WideReadFails` gives the WidthMismatch failure instead.
- There is no concurrency in `tens.py`.

=== FILE: bytes.dfy ===
/**
 * Octets and the little-endian unsigned layout that every multi-byte
 * field of a Tens container uses (the '<' prefix of its struct formats).
 */
module Bytes {
  /** One octet of a container. */
  type byte = x: int | 0 <= x < 256

  /** 256^n: how many distinct values an n-byte field can hold. */
  function Pow256(n: nat): (p: nat)
    ensures p >= 1
  {
    if n == 0 then 1 else 256 * Pow256(n - 1)
  }

  /** The unsigned value of a little-endian byte string. */
  function FromLE(s: seq<byte>): (v: nat)
    ensures v < Pow256(|s|)
  {
    if s == [] then 0 else s[0] + 256 * FromLE(s[1..])
  }

  /** The n-byte little-endian layout of v; reading it back gives v. */
  function LE(v: nat, n: nat): (s: seq<byte>)
    requires v < Pow256(n)
    ensures |s| == n
    ensures FromLE(s) == v
  {
    if n == 0 then [] else [v % 256] + LE(v / 256, n - 1)
  }

  /** Every byte string is the layout of the value it reads as. */
  lemma {:induction false} LEOfFromLE(s: seq<byte>)
    ensures LE(FromLE(s), |s|) == s
  {
    if s != [] {
      var v := FromLE(s);
      var rest := FromLE(s[1..]);
      assert v % 256 == s[0] && v / 256 == rest;
      LEOfFromLE(s[1..]);
    }
  }

  /** The bytes taken by count fields of w bytes each, added up one field at a time. */
  function Span(w: nat, count: nat): nat
  {
    if count == 0 then 0 else w + Span(w, count - 1)
  }

  lemma {:induction false} SpanIsProduct(w: nat, count: nat)
    ensures Span(w, count) == w * count
  {
    if count > 0 {
      SpanIsProduct(w, count - 1);
      assert w * count == w * (count - 1) + w;
    }
  }
}

=== FILE: codec.dfy ===
/**
 * The Tens container: load and save of tens.py over byte sequences.
 *
 * Layout, all integers little-endian: the magic "Cc"; a uint16 type code;
 * a uint32 dimension count n; n uint32 dimension sizes; then the elements in
 * flat order, packed with the element type's struct format. The payload
 * therefore starts at offset 8 + 4 * n.
 *
 * Decode and Encode are the specifications; Load and Save are the
 * step-by-step procedures of tens.py, proved to compute them.
 */
module Codec {
  import opened Bytes
  import opened Results
  import opened Struct
  import opened DataType

  /** A tensor: its numpy dtype name, its shape, and its elements flattened in row-major order. */
  datatype Tensor = Tensor(dtype: string, shape: seq<nat>, values: seq<Scalar>)

  /** What a save has put in its file, and how it ended. */
  datatype Written = Written(bytes: seq<byte>, outcome: Outcome)

  /** "Cc" in ASCII. */
  const Magic: seq<byte> := [0x43, 0x63]

  /** Some dimension of the shape is 0. */
  predicate HasZero(shape: seq<nat>)
  {
    exists i :: 0 <= i < |shape| && shape[i] == 0
  }

  /** The element count of a shape: the running product of its dimension sizes, taken left to right from 1. */
  function Product(shape: seq<nat>): (p: nat)
    ensures shape == [] ==> p == 1
    ensures p == 0 <==> HasZero(shape)
  {
    if shape == [] then 1
    else
      var init, last := shape[..|shape| - 1], shape[|shape| - 1];
      assert forall i :: 0 <= i < |init| ==> init[i] == shape[i];
      Product(init) * last
  }

  /** What f.read(n) returns with the cursor at pos: n bytes, or fewer at the end of the file. */
  function Read(data: seq<byte>, pos: nat, n: nat): (chunk: seq<byte>)
    requires n > 0
    ensures |chunk| <= n
    ensures |chunk| == n <==> pos + n <= |data|
    ensures |chunk| == n ==> chunk == data[pos..pos + n]
  {
    if pos + n <= |data| then data[pos..pos + n]
    else if pos <= |data| then data[pos..]
    else []
  }

  /** struct.unpack of '<H' or '<I' on f.read(n): a short read cannot be unpacked. */
  function ReadUInt(data: seq<byte>, pos: nat, n: nat): (r: Result<nat>)
    requires n > 0
    ensures r.Ok? <==> pos + n <= |data|
    ensures r.Ok? ==> r.value < Pow256(n)
    ensures r.Err? ==> r.error == Truncated
  {
    var chunk := Read(data, pos, n);
    if |chunk| < n then Err(Truncated)
    else Ok(FromLE(chunk))
  }

  /**
   * The shape loop of load from the point where acc has been read and left
   * dimension sizes remain: each is a uint32 at the cursor, which moves by 4.
   */
  function DecodeShape(data: seq<byte>, pos: nat, left: nat, acc: seq<nat>): (r: Result<seq<nat>>)
    ensures r.Ok? ==> |r.value| == |acc| + left && r.value[..|acc|] == acc
    ensures r.Ok? ==> forall i :: |acc| <= i < |r.value| ==> r.value[i] < Pow256(4)
    ensures r.Err? ==> r.error == Truncated
    decreases left
  {
    if left == 0 then Ok(acc)
    else
      var d := ReadUInt(data, pos, 4);
      if d.Err? then Err(d.error)
      else DecodeShape(data, pos + 4, left - 1, acc + [d.value])
  }

  /**
   * The element loop of load from the point where acc has been filled and
   * left elements remain: read w bytes at the cursor, move the cursor by what
   * was read, and unpack those bytes with format f.
   */
  function DecodeValues(f: Format, w: nat, data: seq<byte>, pos: nat, left: nat, acc: seq<Scalar>): (r: Result<seq<Scalar>>)
    requires w > 0
    ensures r.Ok? ==> |r.value| == |acc| + left && r.value[..|acc|] == acc
    ensures r.Ok? ==> forall i :: |acc| <= i < |r.value| ==> Fits(f, r.value[i])
    ensures r.Err? ==> r.error == Truncated || r.error == WidthMismatch
    decreases left
  {
    if left == 0 then Ok(acc)
    else
      var chunk := Read(data, pos, w);
      var x := Unpack(f, chunk);
      if x.Err? then Err(x.error)
      else DecodeValues(f, w, data, pos + |chunk|, left - 1, acc + [x.value])
  }

  /** What load knows once it has read the eight header bytes. */
  datatype Header = Header(kind: ElementType, dimensions: nat)

  /**
   * The header part of load: check the magic, resolve the uint16 type code
   * (rejecting Special), and read the uint32 dimension count.
   */
  function DecodeHeader(data: seq<byte>): (r: Result<Header>)
    ensures r.Ok? ==> r.value.kind in All && r.value.dimensions < Pow256(4)
    ensures r.Err? ==> r.error == BadMagic || r.error == UnsupportedType || r.error == Truncated
  {
    if Read(data, 0, 2) != Magic then Err(BadMagic)
    else
      var code := ReadUInt(data, 2, 2);
      if code.Err? then Err(code.error)
      else
        var kind := GetDataDtype(code.value);
        if kind == Special then Err(UnsupportedType)
        else
          var n := ReadUInt(data, 4, 4);
          if n.Err? then Err(n.error) else Ok(Header(kind, n.value))
  }

  /** load: the header, then the shape, then as many elements as the shape's product. */
  function Decode(data: seq<byte>): (r: Result<Tensor>)
    ensures r.Ok? ==> |r.value.values| == Product(r.value.shape)
    ensures r.Ok? ==> forall i :: 0 <= i < |r.value.shape| ==> r.value.shape[i] < Pow256(4)
    ensures r.Ok? ==> GetTensorType(r.value.dtype).Ok?
    ensures r.Err? ==> r.error != OutOfRange && r.error != NameUndefined && r.error != EmptyIteration
  {
    var header := DecodeHeader(data);
    if header.Err? then Err(header.error)
    else
      RegistryInverse(header.value.kind);
      DecodeBody(data, header.value.kind, header.value.dimensions)
  }

  /** The part of load after the header: n dimension sizes from offset 8, then the elements. */
  function DecodeBody(data: seq<byte>, kind: ElementType, n: nat): (r: Result<Tensor>)
    requires kind != Special
    ensures r.Ok? ==> |r.value.values| == Product(r.value.shape)
    ensures r.Ok? ==> forall i :: 0 <= i < |r.value.shape| ==> r.value.shape[i] < Pow256(4)
    ensures r.Ok? ==> r.value.dtype == Name(kind)
    ensures r.Err? ==> r.error == Truncated || r.error == WidthMismatch
  {
    var shape := DecodeShape(data, 8, n, []);
    if shape.Err? then Err(shape.error)
    else
      var values := DecodeValues(StructFormat(kind), Width(kind), data, 8 + 4 * n, Product(shape.value), []);
      if values.Err? then Err(values.error)
      else Ok(Tensor(Name(kind), shape.value, values.value))
  }

  /** Once the shape is read, DecodeBody reads the elements at the payload offset 8 + 4 * n. */
  lemma DecodeBodyAt(data: seq<byte>, kind: ElementType, n: nat, shape: seq<nat>, payload: nat)
    requires kind != Special && payload == 8 + 4 * n && DecodeShape(data, 8, n, []) == Ok(shape)
    ensures
      var values := DecodeValues(StructFormat(kind), Width(kind), data, payload, Product(shape), []);
      DecodeBody(data, kind, n) == if values.Err? then Err(values.error) else Ok(Tensor(Name(kind), shape, values.value))
  {
  }

  /** The integers of a shape, as struct.pack receives them. */
  function Ints(shape: seq<nat>): (xs: seq<Scalar>)
    ensures |xs| == |shape|
    ensures forall i :: 0 <= i < |shape| ==> xs[i] == IntVal(shape[i])
  {
    seq(|shape|, i requires 0 <= i < |shape| => IntVal(shape[i]))
  }

  /**
   * A packing loop of save from index j on, with file written so far: append
   * each value packed with format f, stopping at the first that does not fit.
   */
  function WriteAll(f: Format, xs: seq<Scalar>, j: nat, file: seq<byte>): (w: Written)
    requires j <= |xs|
    ensures |w.bytes| >= |file| && w.bytes[..|file|] == file
    ensures w.outcome.Pass? <==> forall i :: j <= i < |xs| ==> Fits(f, xs[i])
    ensures w.outcome.Fail? ==> w.outcome.error == OutOfRange
    decreases |xs| - j
  {
    if j == |xs| then Written(file, Pass)
    else
      var b := Pack(f, xs[j]);
      if b.Err? then Written(file, Fail(b.error))
      else WriteAll(f, xs, j + 1, file + b.value)
  }

  /**
   * save: write the magic, resolve the dtype (an unknown one fails with the
   * magic already written), then write the type code, the dimension count,
   * each dimension, and each element. The elements are visited with
   * np.nditer, which refuses an array with no elements: a tensor with a zero
   * dimension fails once its dimensions are written.
   */
  function Encode(t: Tensor): (w: Written)
    ensures w.outcome.Fail? ==> w.outcome.error in {NameUndefined, OutOfRange, EmptyIteration}
  {
    match GetTensorType(t.dtype)
    case Err(e) => Written(Magic, Fail(e))
    case Ok(kind) =>
      var head := Magic + LE(Code(kind), 2);
      match Pack(UnsignedInt, IntVal(|t.shape|))
      case Err(e) => Written(head, Fail(e))
      case Ok(ndim) =>
        var dims := WriteAll(UnsignedInt, Ints(t.shape), 0, head + ndim);
        if dims.outcome.Fail? then dims
        else if Product(t.shape) == 0 then Written(dims.bytes, Fail(EmptyIteration))
        else WriteAll(StructFormat(kind), t.values, 0, dims.bytes)
  }

  lemma ProductSnoc(shape: seq<nat>, s: nat)
    ensures Product(shape + [s]) == Product(shape) * s
  {
    assert (shape + [s])[..|shape|] == shape;
  }

  /** The shape loop of load: read count dimension sizes from pos0, keeping the running product. */
  method ReadShape(data: seq<byte>, pos0: nat, count: nat) returns (r: Result<seq<nat>>, size: nat)
    ensures r == DecodeShape(data, pos0, count, [])
    ensures r.Ok? ==> size == Product(r.value)
  {
    var pos := pos0;
    var shape: seq<nat> := [];
    size := 1;
    for d := 0 to count
      invariant size == Product(shape)
      invariant DecodeShape(data, pos0, count, []) == DecodeShape(data, pos, count - d, shape)
    {
      var s := ReadUInt(data, pos, 4);
      if s.Err? {
        return Err(s.error), size;
      }
      ProductSnoc(shape, s.value);
      shape := shape + [s.value];
      size := size * s.value;
      pos := pos + 4;
    }
    return Ok(shape), size;
  }

  /** The element loop of load: fill a preallocated array of count elements read from pos0. */
  method ReadElements(data: seq<byte>, pos0: nat, f: Format, w: nat, count: nat) returns (r: Result<seq<Scalar>>)
    requires w > 0
    ensures r == DecodeValues(f, w, data, pos0, count, [])
  {
    var pos: nat := pos0;
    var tensor := new Scalar[count];
    var i := 0;
    while i < count
      invariant i <= count
      invariant DecodeValues(f, w, data, pos0, count, []) == DecodeValues(f, w, data, pos, count - i, tensor[..i])
    {
      var chunk := Read(data, pos, w);
      var d := Unpack(f, chunk);
      if d.Err? {
        return Err(d.error);
      }
      ghost var before := tensor[..i];
      tensor[i] := d.value;
      assert tensor[..i + 1] == before + [d.value];
      i := i + 1;
      pos := pos + |chunk|;
    }
    assert tensor[..count] == tensor[..];
    return Ok(tensor[..]);
  }

  /** load over the bytes of a file: the header, then the shape loop and the element loop. */
  method Load(data: seq<byte>) returns (r: Result<Tensor>)
    ensures r == Decode(data)
  {
    var header := ReadHeader(data);
    if header.Err? {
      return Err(header.error);
    }
    r := ReadBody(data, header.value.kind, header.value.dimensions);
  }

  /** The first eight bytes, read field by field with a cursor. */
  method ReadHeader(data: seq<byte>) returns (r: Result<Header>)
    ensures r == DecodeHeader(data)
  {
    var pos: nat := 0;
    var magic := Read(data, pos, 2);
    if magic != Magic {
      return Err(BadMagic);
    }
    pos := pos + 2;

    var code := ReadUInt(data, pos, 2);
    if code.Err? {
      return Err(code.error);
    }
    pos := pos + 2;
    var kind := GetDataDtype(code.value);
    if kind == Special {
      return Err(UnsupportedType);
    }

    var dimensions := ReadUInt(data, pos, 4);
    if dimensions.Err? {
      return Err(dimensions.error);
    }
    return Ok(Header(kind, dimensions.value));
  }

  /** The rest of load once the header is read: the shape loop from offset 8, then the element loop. */
  method ReadBody(data: seq<byte>, kind: ElementType, dimensions: nat) returns (r: Result<Tensor>)
    requires kind != Special
    ensures r == DecodeBody(data, kind, dimensions)
  {
    var shape, size := ReadShape(data, 8, dimensions);
    if shape.Err? {
      return Err(shape.error);
    }
    var pos := 8 + 4 * dimensions;
    DecodeBodyAt(data, kind, dimensions, shape.value, pos);

    var values := ReadElements(data, pos, StructFormat(kind), Width(kind), size);
    if values.Err? {
      return Err(values.error);
    }
    return Ok(Tensor(Name(kind), shape.value, values.value));
  }

  /** save into an initially empty file, appending each field as it is packed. */
  method Save(t: Tensor) returns (file: seq<byte>, outcome: Outcome)
    ensures Written(file, outcome) == Encode(t)
  {
    file := Magic;
    var found := GetTensorType(t.dtype);
    if found.Err? {
      return file, Fail(found.error);
    }
    var kind := found.value;
    file := file + LE(Code(kind), 2);

    var ndim := Pack(UnsignedInt, IntVal(|t.shape|));
    if ndim.Err? {
      return file, Fail(ndim.error);
    }
    file := file + ndim.value;

    var dims := Ints(t.shape);
    file, outcome := WriteLoop(UnsignedInt, dims, file);
    if outcome.Fail? {
      return;
    }
    if Product(t.shape) == 0 {
      return file, Fail(EmptyIteration);
    }
    file, outcome := WriteLoop(StructFormat(kind), t.values, file);
  }

  /** A packing loop of save: append each of xs packed with format f, failing at the first that does not fit. */
  method WriteLoop(f: Format, xs: seq<Scalar>, start: seq<byte>) returns (file: seq<byte>, outcome: Outcome)
    ensures Written(file, outcome) == WriteAll(f, xs, 0, start)
  {
    file := start;
    for j := 0 to |xs|
      invariant WriteAll(f, xs, j, file) == WriteAll(f, xs, 0, start)
    {
      var b := Pack(f, xs[j]);
      if b.Err? {
        return file, Fail(b.error);
      }
      file := file + b.value;
    }
    outcome := Pass;
  }
}

=== FILE: datatype.dfy ===
/**
 * The registry of element types (tens.py's DataType class): a fixed table
 * of rows (code, numpy dtype name, struct format, declared width) and the
 * two linear searches over it.
 */
module DataType {
  import opened Results
  import opened Struct

  /** A row of the registry; Special is the "unknown type" sentinel. */
  datatype ElementType =
    | Special
    | Byte
    | Int8
    | Int32
    | Float32
    | Int64
    | Float64
    | UInt32
    | UInt64
    | Bool

  /** The type code stored in a container's header. */
  function Code(t: ElementType): (c: nat)
    ensures c == 0 <==> t == Special
    ensures c <= 9
  {
    match t
    case Special => 0
    case Byte => 1
    case Int8 => 2
    case Int32 => 3
    case Float32 => 4
    case Int64 => 5
    case Float64 => 6
    case UInt32 => 7
    case UInt64 => 8
    case Bool => 9
  }

  /** The numpy dtype name a tensor of this type carries. */
  function Name(t: ElementType): (s: string)
    ensures s == "" <==> t == Special
  {
    match t
    case Special => ""
    case Byte => "uint8"
    case Int8 => "int8"
    case Int32 => "int32"
    case Float32 => "float32"
    case Int64 => "int64"
    case Float64 => "float64"
    case UInt32 => "uint32"
    case UInt64 => "uint64"
    case Bool => "bool"
  }

  /** The struct format the codec packs and unpacks elements with. */
  function StructFormat(t: ElementType): (f: Format)
    requires t != Special
    ensures Size(f) <= Width(t)
    ensures f != UnsignedShort
  {
    match t
    case Byte => UnsignedChar
    case Int8 => SignedChar
    case Int32 => Int
    case Float32 => Float
    case Int64 => Long
    case Float64 => Double
    case UInt32 => UnsignedInt
    case UInt64 => UnsignedLong
    case Bool => Boolean
  }

  /** The width in bytes the table declares, which is how much load reads per element. */
  function Width(t: ElementType): (w: nat)
    ensures w == 0 <==> t == Special
    ensures w == 1 || w == 4 || w == 8 || w == 0
  {
    match t
    case Special => 0
    case Byte => 1
    case Int8 => 1
    case Int32 => 4
    case Float32 => 4
    case Int64 => 8
    case Float64 => 8
    case UInt32 => 4
    case UInt64 => 8
    case Bool => 1
  }

  /** Every row except Special, in the table's order. */
  const All: seq<ElementType> := [Byte, Int8, Int32, Float32, Int64, Float64, UInt32, UInt64, Bool]

  /** The rows of All carry the codes 1 to 9 in order. */
  lemma AllCodes()
    ensures |All| == 9
    ensures forall i :: 0 <= i < |All| ==> Code(All[i]) == i + 1
  {
  }

  /** The first row of the table with the given code, or Special when none has it. */
  function FindCode(table: seq<ElementType>, code: int): (t: ElementType)
    ensures t != Special ==> t in table && Code(t) == code
    ensures t == Special ==> forall i :: 0 <= i < |table| && table[i] != Special ==> Code(table[i]) != code
  {
    if table == [] then Special
    else if Code(table[0]) == code then table[0]
    else FindCode(table[1..], code)
  }

  /** get_data_dtype: the row of All with the given code; Special for 0 and every code above 9. */
  function GetDataDtype(code: int): (t: ElementType)
    ensures 1 <= code <= 9 ==> t == All[code - 1]
    ensures !(1 <= code <= 9) ==> t == Special
  {
    AllCodes();
    FindCode(All, code)
  }

  /**
   * The first row of the table with the given dtype name. When there is none,
   * get_tensor_type evaluates the unqualified name SPECIAL, which is not
   * defined at module level, so the lookup fails instead of returning the
   * sentinel.
   */
  function FindName(table: seq<ElementType>, dtype: string): (r: Result<ElementType>)
    ensures r.Ok? ==> r.value in table && Name(r.value) == dtype
    ensures r.Err? ==> r.error == NameUndefined && forall i :: 0 <= i < |table| ==> Name(table[i]) != dtype
  {
    if table == [] then Err(NameUndefined)
    else if Name(table[0]) == dtype then Ok(table[0])
    else FindName(table[1..], dtype)
  }

  /** get_tensor_type: the row of All whose dtype name is the tensor's; an unknown name fails. */
  function GetTensorType(dtype: string): (r: Result<ElementType>)
    ensures r.Ok? ==> r.value in All && r.value != Special && Name(r.value) == dtype
    ensures r.Err? <==> forall t :: t in All ==> Name(t) != dtype
    ensures r.Err? ==> r.error == NameUndefined
  {
    FindName(All, dtype)
  }

  /** No two rows of All share a code, and none uses the sentinel's code 0. */
  lemma CodesDistinct()
    ensures forall i, j :: 0 <= i < j < |All| ==> Code(All[i]) != Code(All[j])
    ensures forall i :: 0 <= i < |All| ==> Code(All[i]) != Code(Special)
  {
    AllCodes();
  }

  /** Looking up a row by its own code or by its own name gives that row back. */
  lemma RegistryInverse(t: ElementType)
    requires t in All
    ensures GetDataDtype(Code(t)) == t
    ensures GetTensorType(Name(t)) == Ok(t)
  {
    AllCodes();
    var r := GetTensorType(Name(t));
    assert t == All[Code(t) - 1];
    NamesDistinct(r.value, t);
  }

  /** No two rows share a dtype name. */
  lemma NamesDistinct(a: ElementType, b: ElementType)
    requires Name(a) == Name(b)
    ensures a == b
  {
  }

  /** The declared width is what the struct format packs, except for int64 and uint64. */
  predicate WidthsAgree(t: ElementType)
    requires t != Special
  {
    Size(StructFormat(t)) == Width(t)
  }

  /** int64 and uint64 declare 8 bytes but use 'l' and 'L', which pack 4. */
  lemma WidthsAgreeExceptLong(t: ElementType)
    requires t in All
    ensures WidthsAgree(t) <==> t != Int64 && t != UInt64
    ensures !WidthsAgree(t) ==> Size(StructFormat(t)) == 4 && Width(t) == 8
  {
  }
}

=== FILE: load_properties.dfy ===
/**
 * What load accepts and rejects: the magic and type-code checks, the size of
 * the payload, where each field is read from, and how much of the input it
 * consumes.
 */
module LoadProperties {
  import opened Bytes
  import opened Results
  import opened Struct
  import opened DataType
  import opened Codec

  /** load rejects its input with BadMagic exactly when the first two bytes are missing or are not "Cc". */
  lemma BadMagicIff(data: seq<byte>)
    ensures Decode(data) == Err(BadMagic) <==> |data| < 2 || data[..2] != Magic
  {
    if |data| >= 2 {
      assert Read(data, 0, 2) == data[..2];
    } else {
      assert |Read(data, 0, 2)| < 2;
    }
  }

  /**
   * With the magic in place and the type code present, load rejects the input
   * with UnsupportedType exactly when the code is 0 or above 9.
   */
  lemma UnsupportedTypeIff(data: seq<byte>)
    requires |data| >= 4 && data[..2] == Magic
    ensures Decode(data) == Err(UnsupportedType) <==> !(1 <= FromLE(data[2..4]) <= 9)
  {
    assert Read(data, 0, 2) == data[..2];
    assert ReadUInt(data, 2, 2) == Ok(FromLE(data[2..4]));
  }

  /** The shape loop succeeds exactly when its left uint32 fields are all in the input. */
  lemma {:induction false} ShapeOkIff(data: seq<byte>, pos: nat, left: nat, acc: seq<nat>)
    requires pos <= |data|
    ensures DecodeShape(data, pos, left, acc).Ok? <==> pos + Span(4, left) <= |data|
    decreases left
  {
    if left > 0 {
      var d := ReadUInt(data, pos, 4);
      if d.Ok? {
        ShapeOkIff(data, pos + 4, left - 1, acc + [d.value]);
      }
    }
  }

  /**
   * When the format unpacks exactly the declared width, the element loop
   * succeeds exactly when its left elements are all in the input, and
   * otherwise fails with Truncated.
   */
  lemma {:induction false} ValuesOkIff(f: Format, w: nat, data: seq<byte>, pos: nat, left: nat, acc: seq<Scalar>)
    requires w == Size(f) && pos <= |data|
    ensures DecodeValues(f, w, data, pos, left, acc).Ok? <==> pos + Span(w, left) <= |data|
    ensures DecodeValues(f, w, data, pos, left, acc).Err? ==> DecodeValues(f, w, data, pos, left, acc).error == Truncated
    decreases left
  {
    if left > 0 {
      var x := Unpack(f, Read(data, pos, w));
      if x.Ok? {
        ValuesOkIff(f, w, data, pos + w, left - 1, acc + [x.value]);
      }
    }
  }

  /** A read of n bytes sees the same chunk in two inputs that agree on those bytes. */
  lemma ReadAgrees(data: seq<byte>, data': seq<byte>, pos: nat, n: nat)
    requires n > 0 && pos + n <= |data| && pos + n <= |data'|
    requires forall i :: pos <= i < pos + n ==> data[i] == data'[i]
    ensures Read(data, pos, n) == Read(data', pos, n) && |Read(data, pos, n)| == n
  {
    assert data[pos..pos + n] == data'[pos..pos + n];
  }

  /** The shape loop reads nothing beyond its last field: two inputs that agree up to it give the same shape. */
  lemma {:induction false} ShapeLocal(data: seq<byte>, data': seq<byte>, pos: nat, left: nat, acc: seq<nat>)
    requires pos + Span(4, left) <= |data| && pos + Span(4, left) <= |data'|
    requires forall i :: 0 <= i < pos + Span(4, left) ==> data[i] == data'[i]
    ensures DecodeShape(data, pos, left, acc) == DecodeShape(data', pos, left, acc)
    decreases left
  {
    if left > 0 {
      ReadAgrees(data, data', pos, 4);
      var d := ReadUInt(data, pos, 4);
      if d.Ok? {
        ShapeLocal(data, data', pos + 4, left - 1, acc + [d.value]);
      }
    }
  }

  /** The element loop reads nothing beyond its last full chunk: two inputs that agree up to it give the same elements. */
  lemma {:induction false} ValuesLocal(f: Format, w: nat, data: seq<byte>, data': seq<byte>, pos: nat, left: nat, acc: seq<Scalar>)
    requires w > 0
    requires pos + Span(w, left) <= |data| && pos + Span(w, left) <= |data'|
    requires forall i :: 0 <= i < pos + Span(w, left) ==> data[i] == data'[i]
    ensures DecodeValues(f, w, data, pos, left, acc) == DecodeValues(f, w, data', pos, left, acc)
    decreases left
  {
    if left > 0 {
      ReadAgrees(data, data', pos, w);
      var x := Unpack(f, Read(data, pos, w));
      if x.Ok? {
        ValuesLocal(f, w, data, data', pos + w, left - 1, acc + [x.value]);
      }
    }
  }

  /** The header load accepts: "Cc", the code of a registered type, and the dimension count. */
  lemma HeaderOkIff(data: seq<byte>, kind: ElementType, n: nat)
    ensures DecodeHeader(data) == Ok(Header(kind, n)) <==>
      |data| >= 8 && data[..2] == Magic && kind in All && FromLE(data[2..4]) == Code(kind) && FromLE(data[4..8]) == n
  {
    AllCodes();
    if |data| >= 8 && data[..2] == Magic {
      assert Read(data, 0, 2) == data[..2];
      assert ReadUInt(data, 2, 2) == Ok(FromLE(data[2..4]));
      assert ReadUInt(data, 4, 4) == Ok(FromLE(data[4..8]));
      if kind in All {
        RegistryInverse(kind);
      }
    } else if |data| >= 2 {
      assert Read(data, 0, 2) == data[..2];
    }
  }

  /** After the header, load succeeds with t exactly when it reads t's shape and then t's elements. */
  lemma BodyOkIff(data: seq<byte>, kind: ElementType, n: nat, t: Tensor)
    requires kind != Special
    ensures DecodeBody(data, kind, n) == Ok(t) <==>
      t.dtype == Name(kind) && |t.shape| == n && DecodeShape(data, 8, n, []) == Ok(t.shape)
      && DecodeValues(StructFormat(kind), Width(kind), data, 8 + 4 * n, Product(t.shape), []) == Ok(t.values)
  {
  }

  /** A successful load has read a registered type code and exactly as many dimensions as the shape has. */
  lemma DecodeOkParts(data: seq<byte>, t: Tensor) returns (kind: ElementType)
    requires Decode(data) == Ok(t)
    ensures kind in All && kind != Special && GetTensorType(t.dtype) == Ok(kind)
    ensures DecodeHeader(data) == Ok(Header(kind, |t.shape|))
    ensures DecodeBody(data, kind, |t.shape|) == Ok(t)
  {
    var header := DecodeHeader(data);
    assert header.Ok?;
    kind := header.value.kind;
    assert DecodeBody(data, kind, header.value.dimensions) == Ok(t);
    BodyOkIff(data, kind, header.value.dimensions, t);
    RegistryInverse(kind);
  }

  /** The header load looks at the first eight bytes only. */
  lemma HeaderLocal(data: seq<byte>, data': seq<byte>)
    requires |data| >= 8 && |data'| >= 8
    requires forall i :: 0 <= i < 8 ==> data[i] == data'[i]
    ensures DecodeHeader(data) == DecodeHeader(data')
  {
    assert data[..2] == data'[..2];
    assert data[2..4] == data'[2..4];
    assert data[4..8] == data'[4..8];
    assert Read(data, 0, 2) == Read(data', 0, 2);
    assert ReadUInt(data, 2, 2) == ReadUInt(data', 2, 2);
    assert ReadUInt(data, 4, 4) == ReadUInt(data', 4, 4);
  }

  /**
   * After the header, a successful load of a type whose format unpacks its
   * declared width w has read 4 * n bytes of shape and size * w bytes of
   * elements, all within the input.
   */
  lemma BodyLength(data: seq<byte>, kind: ElementType, n: nat, t: Tensor)
    requires kind != Special && WidthsAgree(kind) && |data| >= 8
    requires DecodeBody(data, kind, n) == Ok(t)
    ensures 8 + 4 * n + Span(Width(kind), |t.values|) <= |data|
  {
    BodyOkIff(data, kind, n, t);
    var f, w := StructFormat(kind), Width(kind);
    assert |t.values| == Product(t.shape);
    ShapeOkIff(data, 8, n, []);
    SpanIsProduct(4, n);
    ValuesOkIff(f, w, data, 8 + 4 * n, Product(t.shape), []);
  }

  /** The body load reads nothing past the last element it consumes. */
  lemma BodyLocal(data: seq<byte>, data': seq<byte>, kind: ElementType, n: nat, t: Tensor)
    requires kind != Special && WidthsAgree(kind)
    requires DecodeBody(data, kind, n) == Ok(t)
    requires 8 + 4 * n + Span(Width(kind), |t.values|) <= |data|
    requires 8 + 4 * n + Span(Width(kind), |t.values|) <= |data'|
    requires forall i :: 0 <= i < 8 + 4 * n + Span(Width(kind), |t.values|) ==> data[i] == data'[i]
    ensures DecodeBody(data', kind, n) == Ok(t)
  {
    BodyOkIff(data, kind, n, t);
    var f, w := StructFormat(kind), Width(kind);
    var payload := 8 + 4 * n;
    SpanIsProduct(4, n);
    ShapeLocal(data, data', 8, n, []);
    ValuesLocal(f, w, data, data', payload, Product(t.shape), []);
    BodyOkIff(data', kind, n, t);
  }

  /** A prefix of the input followed by anything agrees with the input up to the prefix's end. */
  lemma PrefixAgrees(data: seq<byte>, length: nat, extra: seq<byte>)
    requires length <= |data|
    ensures |data[..length] + extra| >= length
    ensures forall i :: 0 <= i < length ==> (data[..length] + extra)[i] == data[i]
  {
  }

  /** The header and the body load the same from the bytes they consume, whatever follows them. */
  lemma PrefixLoads(data: seq<byte>, kind: ElementType, n: nat, t: Tensor, extra: seq<byte>)
    requires kind != Special && WidthsAgree(kind)
    requires DecodeHeader(data) == Ok(Header(kind, n)) && DecodeBody(data, kind, n) == Ok(t)
    ensures 8 + 4 * n + Span(Width(kind), |t.values|) <= |data|
    ensures
      var data' := data[..8 + 4 * n + Span(Width(kind), |t.values|)] + extra;
      DecodeHeader(data') == Ok(Header(kind, n)) && DecodeBody(data', kind, n) == Ok(t)
  {
    DecodeAfterHeader(data, kind, n);
    BodyLength(data, kind, n, t);
    var length := 8 + 4 * n + Span(Width(kind), |t.values|);
    PrefixAgrees(data, length, extra);
    var data' := data[..length] + extra;
    HeaderLocal(data, data');
    BodyLocal(data, data', kind, n, t);
  }

  /**
   * A successful load of a type whose format unpacks its declared width w
   * consumes exactly 8 + 4 * n + size * w bytes: those bytes alone load the
   * same tensor, whatever follows them.
   */
  lemma TrailingBytesIgnored(data: seq<byte>, t: Tensor, kind: ElementType, extra: seq<byte>)
    requires Decode(data) == Ok(t)
    requires GetTensorType(t.dtype) == Ok(kind) && WidthsAgree(kind)
    ensures 8 + 4 * |t.shape| + Span(Width(kind), |t.values|) <= |data|
    ensures Decode(data[..8 + 4 * |t.shape| + Span(Width(kind), |t.values|)] + extra) == Ok(t)
  {
    var k := DecodeOkParts(data, t);
    assert k == kind;
    var n, w := |t.shape|, Width(kind);
    PrefixLoads(data, kind, n, t, extra);
    var length := 8 + 4 * n + Span(w, |t.values|);
    DecodeAfterHeader(data[..length] + extra, kind, n);
  }

  /**
   * An input cut inside the header is rejected: with UnsupportedType when the
   * type code was present and bad, and with Truncated otherwise.
   */
  lemma HeaderTruncated(data: seq<byte>)
    requires 2 <= |data| < 8 && data[..2] == Magic
    ensures Decode(data) == Err(if |data| >= 4 && !(1 <= FromLE(data[2..4]) <= 9) then UnsupportedType else Truncated)
  {
    assert Read(data, 0, 2) == data[..2];
    if |data| >= 4 {
      assert ReadUInt(data, 2, 2) == Ok(FromLE(data[2..4]));
    }
  }

  /** A good header followed by fewer than n uint32 dimensions is rejected with Truncated. */
  lemma ShapeTruncated(data: seq<byte>, kind: ElementType, n: nat)
    requires DecodeHeader(data) == Ok(Header(kind, n))
    requires |data| < 8 + 4 * n
    ensures Decode(data) == Err(Truncated)
  {
    HeaderOkIff(data, kind, n);
    ShapeOkIff(data, 8, n, []);
    SpanIsProduct(4, n);
  }

  /** Once the header is read, what load returns is what the body load returns. */
  lemma DecodeAfterHeader(data: seq<byte>, kind: ElementType, n: nat)
    requires DecodeHeader(data) == Ok(Header(kind, n))
    ensures |data| >= 8 && kind != Special && Decode(data) == DecodeBody(data, kind, n)
  {
    HeaderOkIff(data, kind, n);
  }

  /** The element loop, started at the payload offset after the shape, succeeds exactly when all the elements are there. */
  lemma PayloadIff(data: seq<byte>, f: Format, w: nat, n: nat, shape: seq<nat>)
    requires w == Size(f) && DecodeShape(data, 8, n, []) == Ok(shape) && |data| >= 8
    ensures DecodeValues(f, w, data, 8 + 4 * n, Product(shape), []).Ok? <==> 8 + 4 * n + Span(w, Product(shape)) <= |data|
    ensures DecodeValues(f, w, data, 8 + 4 * n, Product(shape), []).Err? ==> DecodeValues(f, w, data, 8 + 4 * n, Product(shape), []).error == Truncated
  {
    ShapeOkIff(data, 8, n, []);
    SpanIsProduct(4, n);
    ValuesOkIff(f, w, data, 8 + 4 * n, Product(shape), []);
  }

  /** The body load, on a format that unpacks its declared width, succeeds exactly when all the elements are there. */
  lemma BodyTruncatedIff(data: seq<byte>, kind: ElementType, n: nat, shape: seq<nat>)
    requires kind != Special && WidthsAgree(kind) && |data| >= 8
    requires DecodeShape(data, 8, n, []) == Ok(shape)
    ensures DecodeBody(data, kind, n).Ok? <==> 8 + 4 * n + Span(Width(kind), Product(shape)) <= |data|
    ensures DecodeBody(data, kind, n).Err? ==> DecodeBody(data, kind, n).error == Truncated
  {
    DecodeBodyAt(data, kind, n, shape, 8 + 4 * n);
    PayloadIff(data, StructFormat(kind), Width(kind), n, shape);
  }

  /**
   * With the header and shape read, and a format that unpacks its declared
   * width w, load succeeds exactly when size * w bytes of elements follow the
   * shape, and otherwise fails with Truncated.
   */
  lemma ValuesTruncatedIff(data: seq<byte>, kind: ElementType, n: nat, shape: seq<nat>)
    requires DecodeHeader(data) == Ok(Header(kind, n)) && WidthsAgree(kind)
    requires DecodeShape(data, 8, n, []) == Ok(shape)
    ensures Decode(data).Ok? <==> 8 + 4 * n + Product(shape) * Width(kind) <= |data|
    ensures Decode(data).Err? ==> Decode(data).error == Truncated
  {
    DecodeAfterHeader(data, kind, n);
    BodyTruncatedIff(data, kind, n, shape);
    SpanIsProduct(Width(kind), Product(shape));
  }
}

=== FILE: results.dfy ===
/** The ways a save or a load can fail, and the result types that carry them. */
module Results {
  datatype Error =
    | BadMagic         // the first two bytes read are not "Cc"
    | UnsupportedType  // the type code resolves to the SPECIAL row
    | Truncated        // a read came back shorter than its struct format unpacks
    | WidthMismatch    // a read came back longer than its struct format unpacks
    | OutOfRange       // struct.pack was given a value its format cannot hold
    | NameUndefined    // the dtype lookup fell through to the undefined name SPECIAL
    | EmptyIteration   // np.nditer refuses to iterate over an array with no elements

  /** A value, or the error that stopped its computation. */
  datatype Result<+T> = Ok(value: T) | Err(error: Error)

  /** How an operation that only has effects ended. */
  datatype Outcome = Pass | Fail(error: Error)
}

=== FILE: roundtrip.dfy ===
/**
 * load after save. The round trip holds for every type whose struct format
 * packs the width the registry declares; for int64 and uint64 ('<l' and '<L'
 * pack 4 bytes, load reads 8) it holds only for tensors of one element, and
 * fails with WidthMismatch for every larger one. A save of a tensor with no
 * elements does not pass.
 */
module RoundTrip {
  import opened Bytes
  import opened Results
  import opened Struct
  import opened DataType
  import opened Codec
  import opened LoadProperties
  import opened SaveProperties

  /** The input holds the bytes of part from offset pos on. */
  predicate HoldsAt(data: seq<byte>, pos: nat, part: seq<byte>)
  {
    pos + |part| <= |data| && data[pos..pos + |part|] == part
  }

  /**
   * A part found at one offset is found at the same offset written another
   * way. As a lemma of its own, the step does not make a caller unfold HoldsAt.
   */
  lemma HoldsAtSame(data: seq<byte>, pos: nat, pos': nat, part: seq<byte>)
    requires pos == pos' && HoldsAt(data, pos, part)
    ensures HoldsAt(data, pos', part)
  {
  }

  /** Two sequences that follow each other in the input are found at their offsets. */
  lemma SplitAt(data: seq<byte>, pos: nat, b: seq<byte>, c: seq<byte>)
    requires HoldsAt(data, pos, b + c)
    ensures HoldsAt(data, pos, b) && HoldsAt(data, pos + |b|, c)
  {
    assert data[pos..pos + |b|] == data[pos..pos + |b| + |c|][..|b|];
    assert data[pos + |b|..pos + |b| + |c|] == data[pos..pos + |b| + |c|][|b|..];
  }

  /** Moving one element from a slice onto an accumulator; a lemma of its own so the loop proofs that use it need not reason about slices. */
  lemma ConsSlice<T>(acc: seq<T>, xs: seq<T>, j: nat)
    requires j < |xs|
    ensures acc + [xs[j]] + xs[j + 1..] == acc + xs[j..]
  {
    assert xs[j..] == [xs[j]] + xs[j + 1..];
  }

  /** The whole slice after an empty accumulator; a lemma of its own so callers match the induction's result form without unfolding sequences. */
  lemma WholeSlice<T>(xs: seq<T>)
    ensures [] + xs[0..] == xs
  {
  }

  /** Reading the dimensions back from their packed uint32 fields gives the shape. */
  lemma {:induction false} ShapeReads(data: seq<byte>, pos: nat, shape: seq<nat>, j: nat, acc: seq<nat>)
    requires j <= |shape| && FitIn(UnsignedInt, Ints(shape), j, |shape|)
    requires HoldsAt(data, pos, Packed(UnsignedInt, Ints(shape), j, |shape|))
    ensures DecodeShape(data, pos, |shape| - j, acc) == Ok(acc + shape[j..])
    decreases |shape| - j
  {
    if j == |shape| {
      assert acc + shape[j..] == acc;
    } else {
      var rest := Packed(UnsignedInt, Ints(shape), j + 1, |shape|);
      var b := Pack(UnsignedInt, IntVal(shape[j])).value;
      ModulusIsPow(UnsignedInt);
      PackUInt(shape[j]);
      assert Packed(UnsignedInt, Ints(shape), j, |shape|) == b + rest;
      SplitAt(data, pos, b, rest);
      assert ReadUInt(data, pos, 4) == Ok(shape[j]);
      assert DecodeShape(data, pos, |shape| - j, acc) == DecodeShape(data, pos + 4, |shape| - (j + 1), acc + [shape[j]]);
      ShapeReads(data, pos + 4, shape, j + 1, acc + [shape[j]]);
      ConsSlice(acc, shape, j);
    }
  }

  /** One step of the element loop over a packed value gives that value back. */
  lemma ValueStep(f: Format, w: nat, data: seq<byte>, pos: nat, x: Scalar, left: nat, acc: seq<Scalar>)
    requires w == Size(f) && left > 0 && Fits(f, x) && HoldsAt(data, pos, Pack(f, x).value)
    ensures DecodeValues(f, w, data, pos, left, acc) == DecodeValues(f, w, data, pos + w, left - 1, acc + [x])
  {
    UnpackOfPack(f, x);
    assert Read(data, pos, w) == Pack(f, x).value;
  }

  /** The element loop reads the first packed value of a run and goes on at the next. */
  lemma ValuesHead(f: Format, w: nat, data: seq<byte>, pos: nat, values: seq<Scalar>, j: nat, acc: seq<Scalar>)
    requires w == Size(f) && j < |values| && FitIn(f, values, j, |values|)
    requires HoldsAt(data, pos, Packed(f, values, j, |values|))
    ensures FitIn(f, values, j + 1, |values|) && HoldsAt(data, pos + w, Packed(f, values, j + 1, |values|))
    ensures DecodeValues(f, w, data, pos, |values| - j, acc) == DecodeValues(f, w, data, pos + w, |values| - (j + 1), acc + [values[j]])
  {
    var rest := Packed(f, values, j + 1, |values|);
    var b := Pack(f, values[j]).value;
    assert Packed(f, values, j, |values|) == b + rest;
    SplitAt(data, pos, b, rest);
    ValueStep(f, w, data, pos, values[j], |values| - j, acc);
  }

  /** Reading elements of the width their format packs gives the packed values back. */
  lemma {:induction false} ValuesReads(f: Format, w: nat, data: seq<byte>, pos: nat, values: seq<Scalar>, j: nat, acc: seq<Scalar>)
    requires w == Size(f) && j <= |values| && FitIn(f, values, j, |values|)
    requires HoldsAt(data, pos, Packed(f, values, j, |values|))
    ensures DecodeValues(f, w, data, pos, |values| - j, acc) == Ok(acc + values[j..])
    decreases |values| - j
  {
    if j == |values| {
      assert acc + values[j..] == acc;
    } else {
      ValuesHead(f, w, data, pos, values, j, acc);
      ValuesReads(f, w, data, pos + w, values, j + 1, acc + [values[j]]);
      assert DecodeValues(f, w, data, pos, |values| - j, acc) == Ok(acc + values[j..]) by {
        ConsSlice(acc, values, j);
      }
    }
  }

  /** Packed uint32 fields take 4 bytes each. */
  lemma PackedUIntLength(xs: seq<Scalar>)
    requires FitIn(UnsignedInt, xs, 0, |xs|)
    ensures |Packed(UnsignedInt, xs, 0, |xs|)| == 4 * |xs|
  {
    PackedLength(UnsignedInt, xs, 0, |xs|);
    SpanIsProduct(4, |xs|);
  }

  /** The packed dimensions, read from offset 8, give the shape back; they take 4 bytes each. */
  lemma ShapeReadAll(data: seq<byte>, shape: seq<nat>)
    requires FitIn(UnsignedInt, Ints(shape), 0, |shape|)
    requires HoldsAt(data, 8, Packed(UnsignedInt, Ints(shape), 0, |shape|))
    ensures |Packed(UnsignedInt, Ints(shape), 0, |shape|)| == 4 * |shape|
    ensures DecodeShape(data, 8, |shape|, []) == Ok(shape)
  {
    PackedUIntLength(Ints(shape));
    ShapeReads(data, 8, shape, 0, []);
    WholeSlice(shape);
  }

  /** The packed elements, read at the width their format packs, give the values back. */
  lemma ValuesReadAll(f: Format, w: nat, data: seq<byte>, pos: nat, values: seq<Scalar>)
    requires w == Size(f) && FitIn(f, values, 0, |values|)
    requires HoldsAt(data, pos, Packed(f, values, 0, |values|))
    ensures DecodeValues(f, w, data, pos, |values|, []) == Ok(values)
  {
    ValuesReads(f, w, data, pos, values, 0, []);
    WholeSlice(values);
  }

  /**
   * A read of w bytes that meets the end of the input after the one packed
   * value there returns just that value's bytes, so a single element loads
   * even when w is more than its format packs.
   */
  lemma LastValueShort(f: Format, w: nat, data: seq<byte>, pos: nat, x: Scalar)
    requires w >= Size(f) && Fits(f, x)
    requires |data| == pos + Size(f) && data[pos..] == Pack(f, x).value
    ensures DecodeValues(f, w, data, pos, 1, []) == Ok([x])
  {
    UnpackOfPack(f, x);
    assert Read(data, pos, w) == Pack(f, x).value;
    assert DecodeValues(f, w, data, pos, 1, []) == DecodeValues(f, w, data, pos + Size(f), 0, [x]);
  }

  /** The fields of an input that starts with a + b + c + d + e, with a, b and c of 2, 2 and 4 bytes. */
  lemma Pieces(data: seq<byte>, a: seq<byte>, b: seq<byte>, c: seq<byte>, d: seq<byte>, e: seq<byte>)
    requires |a| == 2 && |b| == 2 && |c| == 4
    requires |a + b + c + d + e| <= |data| && data[..|a + b + c + d + e|] == a + b + c + d + e
    ensures data[..2] == a && data[2..4] == b && data[4..8] == c
    ensures HoldsAt(data, 8, d) && HoldsAt(data, 8 + |d|, e)
  {
    var whole := a + b + c + d + e;
    assert forall i :: 0 <= i < |whole| ==> data[i] == whole[i];
    assert data[..2] == a;
    assert data[2..4] == b;
    assert data[4..8] == c;
    assert data[8..8 + |d|] == d;
    assert data[8 + |d|..8 + |d| + |e|] == e;
  }

  /** What save checks before it writes the dimensions and the elements of a registered type. */
  predicate Fitting(kind: ElementType, shape: seq<nat>, values: seq<Scalar>)
  {
    kind in All && kind != Special && |shape| < Pow256(4)
    && FitIn(UnsignedInt, Ints(shape), 0, |shape|) && FitIn(StructFormat(kind), values, 0, |values|)
  }

  /** What the conditions of a round trip say about the parts of the saved file. */
  predicate Saved(t: Tensor, kind: ElementType)
  {
    t.dtype == Name(kind) && Fitting(kind, t.shape, t.values)
  }

  /** The three parts of a saved file at their offsets: the 8-byte header, the dimensions, the elements. */
  lemma LayoutParts(kind: ElementType, shape: seq<nat>, values: seq<Scalar>, data: seq<byte>)
    requires Fitting(kind, shape, values)
    requires |Layout(kind, shape, values)| <= |data| && data[..|Layout(kind, shape, values)|] == Layout(kind, shape, values)
    ensures |Layout(kind, shape, values)|
      == 8 + |Packed(UnsignedInt, Ints(shape), 0, |shape|)| + |Packed(StructFormat(kind), values, 0, |values|)|
    ensures data[..2] == Magic && data[2..4] == LE(Code(kind), 2) && data[4..8] == LE(|shape|, 4)
    ensures HoldsAt(data, 8, Packed(UnsignedInt, Ints(shape), 0, |shape|))
    ensures HoldsAt(data, 8 + |Packed(UnsignedInt, Ints(shape), 0, |shape|)|, Packed(StructFormat(kind), values, 0, |values|))
  {
    Pieces(data, Magic, LE(Code(kind), 2), LE(|shape|, 4),
      Packed(UnsignedInt, Ints(shape), 0, |shape|), Packed(StructFormat(kind), values, 0, |values|));
  }

  /** The header of a saved file, and whatever follows it, loads as the tensor's type and dimension count. */
  lemma LayoutHeader(kind: ElementType, shape: seq<nat>, values: seq<Scalar>, data: seq<byte>)
    requires Fitting(kind, shape, values)
    requires |Layout(kind, shape, values)| <= |data| && data[..|Layout(kind, shape, values)|] == Layout(kind, shape, values)
    ensures DecodeHeader(data) == Ok(Header(kind, |shape|))
  {
    LayoutParts(kind, shape, values, data);
    HeaderOkIff(data, kind, |shape|);
  }

  /**
   * In an input that starts with a saved file, the shape loads, and the
   * packed elements sit at offset 8 + 4 * n.
   */
  lemma LayoutShape(kind: ElementType, shape: seq<nat>, values: seq<Scalar>, data: seq<byte>)
    requires Fitting(kind, shape, values)
    requires |Layout(kind, shape, values)| <= |data| && data[..|Layout(kind, shape, values)|] == Layout(kind, shape, values)
    ensures DecodeShape(data, 8, |shape|, []) == Ok(shape)
    ensures |Layout(kind, shape, values)| == 8 + 4 * |shape| + |Packed(StructFormat(kind), values, 0, |values|)|
    ensures HoldsAt(data, 8 + 4 * |shape|, Packed(StructFormat(kind), values, 0, |values|))
  {
    LayoutParts(kind, shape, values, data);
    ShapeReadAll(data, shape);
    assert HoldsAt(data, 8 + 4 * |shape|, Packed(StructFormat(kind), values, 0, |values|));
  }

  /**
   * The element loop gives back the packed values: at the width their format
   * packs, or at a larger width when at most one value ends the input.
   */
  lemma ElementsRead(f: Format, w: nat, data: seq<byte>, pos: nat, values: seq<Scalar>, elements: seq<byte>)
    requires FitIn(f, values, 0, |values|) && w >= Size(f) && elements == Packed(f, values, 0, |values|)
    requires HoldsAt(data, pos, elements)
    requires w == Size(f) || (|values| <= 1 && |data| == pos + |elements|)
    ensures DecodeValues(f, w, data, pos, |values|, []) == Ok(values)
  {
    if w == Size(f) {
      ValuesReadAll(f, w, data, pos, values);
    } else if |values| == 1 {
      var x := values[0];
      assert Packed(f, values, 1, 1) == [];
      assert elements == Pack(f, x).value;
      assert data[pos..] == data[pos..pos + |elements|];
      LastValueShort(f, w, data, pos, x);
      assert values == [x];
    }
  }

  /** The element loop of a registered type gives back its packed values, under the conditions above. */
  lemma KindElementsRead(kind: ElementType, data: seq<byte>, pos: nat, values: seq<Scalar>, elements: seq<byte>)
    requires kind in All && FitIn(StructFormat(kind), values, 0, |values|)
    requires elements == Packed(StructFormat(kind), values, 0, |values|) && HoldsAt(data, pos, elements)
    requires WidthsAgree(kind) || (|values| <= 1 && |data| == pos + |elements|)
    ensures DecodeValues(StructFormat(kind), Width(kind), data, pos, |values|, []) == Ok(values)
  {
    WidthsAgreeExceptLong(kind);
    ElementsRead(StructFormat(kind), Width(kind), data, pos, values, elements);
  }

  /** load returns t when the header, the shape loop and the element loop each return t's part. */
  lemma LoadsFromParts(data: seq<byte>, kind: ElementType, t: Tensor)
    requires DecodeHeader(data) == Ok(Header(kind, |t.shape|)) && t.dtype == Name(kind)
    requires DecodeShape(data, 8, |t.shape|, []) == Ok(t.shape)
    requires |t.values| == Product(t.shape)
    requires kind != Special
    requires DecodeValues(StructFormat(kind), Width(kind), data, 8 + 4 * |t.shape|, |t.values|, []) == Ok(t.values)
    ensures Decode(data) == Ok(t)
  {
    BodyOkIff(data, kind, |t.shape|, t);
    DecodeAfterHeader(data, kind, |t.shape|);
  }

  /**
   * load returns t from an input holding t's header and shape, followed by
   * t's packed elements at offset 8 + 4 * n.
   */
  lemma DecodeOfParts(t: Tensor, kind: ElementType, data: seq<byte>, elements: seq<byte>)
    requires Saved(t, kind) && |t.values| == Product(t.shape) && elements == Packed(StructFormat(kind), t.values, 0, |t.values|)
    requires DecodeHeader(data) == Ok(Header(kind, |t.shape|)) && DecodeShape(data, 8, |t.shape|, []) == Ok(t.shape)
    requires HoldsAt(data, 8 + 4 * |t.shape|, elements)
    requires WidthsAgree(kind) || (|t.values| <= 1 && |data| == 8 + 4 * |t.shape| + |elements|)
    ensures Decode(data) == Ok(t)
  {
    KindElementsRead(kind, data, 8 + 4 * |t.shape|, t.values, elements);
    LoadsFromParts(data, kind, t);
  }

  /**
   * load returns t from an input that holds, one after another, the magic,
   * the type code, the dimension count, the packed dimensions and the packed
   * elements of t.
   */
  lemma DecodeOfPieces(t: Tensor, kind: ElementType, data: seq<byte>, dims: seq<byte>, elements: seq<byte>)
    requires Saved(t, kind) && |t.values| == Product(t.shape)
    requires dims == Packed(UnsignedInt, Ints(t.shape), 0, |t.shape|) && elements == Packed(StructFormat(kind), t.values, 0, |t.values|)
    requires |data| >= 8 && data[..2] == Magic && data[2..4] == LE(Code(kind), 2) && data[4..8] == LE(|t.shape|, 4)
    requires HoldsAt(data, 8, dims) && HoldsAt(data, 8 + |dims|, elements)
    requires WidthsAgree(kind) || (|t.values| <= 1 && |data| == 8 + |dims| + |elements|)
    ensures Decode(data) == Ok(t)
  {
    HeaderOkIff(data, kind, |t.shape|);
    ShapeReadAll(data, t.shape);
    HoldsAtSame(data, 8 + |dims|, 8 + 4 * |t.shape|, elements);
    DecodeOfParts(t, kind, data, elements);
  }

  /**
   * The core of the round trip: any input that starts with the file saved
   * from t loads as t, when the format packs the declared width; when it does
   * not, an input that is exactly the saved file of a tensor with at most one
   * element still loads as t.
   */
  lemma DecodeOfLayout(t: Tensor, kind: ElementType, data: seq<byte>)
    requires Saved(t, kind) && |t.values| == Product(t.shape)
    requires |Layout(kind, t.shape, t.values)| <= |data| && data[..|Layout(kind, t.shape, t.values)|] == Layout(kind, t.shape, t.values)
    requires WidthsAgree(kind) || (Product(t.shape) <= 1 && |data| == |Layout(kind, t.shape, t.values)|)
    ensures Decode(data) == Ok(t)
  {
    LayoutParts(kind, t.shape, t.values, data);
    DecodeOfPieces(t, kind, data, Packed(UnsignedInt, Ints(t.shape), 0, |t.shape|), Packed(StructFormat(kind), t.values, 0, |t.values|));
  }

  /**
   * load gives back the tensor save wrote, for every type except int64 and
   * uint64, and for those when the tensor has one element (a save of a
   * tensor with none does not pass).
   */
  lemma RoundTrip(t: Tensor, kind: ElementType)
    requires GetTensorType(t.dtype) == Ok(kind) && Encode(t).outcome.Pass?
    requires |t.values| == Product(t.shape)
    requires WidthsAgree(kind) || Product(t.shape) <= 1
    ensures Decode(Encode(t).bytes) == Ok(t)
  {
    EncodeLayout(t, kind);
    assert Encode(t).bytes[..|Encode(t).bytes|] == Encode(t).bytes;
    DecodeOfLayout(t, kind, Encode(t).bytes);
  }

  /**
   * A save of a tensor with no elements fails at np.nditer, but the file it
   * leaves behind, header and dimensions, loads back as that tensor.
   */
  lemma EmptySaveLoads(t: Tensor, kind: ElementType)
    requires GetTensorType(t.dtype) == Ok(kind) && Encode(t).outcome == Fail(EmptyIteration)
    requires |t.values| == Product(t.shape)
    ensures Decode(Encode(t).bytes) == Ok(t)
  {
    EncodeEmptyLayout(t, kind);
    var data := Encode(t).bytes;
    assert Packed(StructFormat(kind), t.values, 0, |t.values|) == [];
    assert data == Layout(kind, t.shape, t.values);
    assert data[..|data|] == data;
    DecodeOfLayout(t, kind, data);
  }

  /** For a type whose format packs its declared width, bytes after the saved file change nothing. */
  lemma RoundTripWithTrailing(t: Tensor, kind: ElementType, extra: seq<byte>)
    requires GetTensorType(t.dtype) == Ok(kind) && Encode(t).outcome.Pass?
    requires |t.values| == Product(t.shape) && WidthsAgree(kind)
    ensures Decode(Encode(t).bytes + extra) == Ok(t)
  {
    EncodeLayout(t, kind);
    var data := Encode(t).bytes + extra;
    assert data[..|Encode(t).bytes|] == Encode(t).bytes;
    DecodeOfLayout(t, kind, data);
  }

  /**
   * An element loop whose first read gets more bytes than its format packs
   * fails with WidthMismatch, whether that read is complete or meets the end
   * of the input.
   */
  lemma WideReadFails(f: Format, w: nat, data: seq<byte>, pos: nat, left: nat)
    requires w > Size(f) && left >= 1 && pos + Size(f) < |data|
    ensures DecodeValues(f, w, data, pos, left, []) == Err(WidthMismatch)
  {
    assert |Read(data, pos, w)| > Size(f);
  }

  /**
   * int64 and uint64 tensors of two or more elements do not come back: the
   * first 8-byte read takes two 4-byte elements, which '<l' and '<L' refuse.
   */
  lemma LongKindsBreakRoundTrip(t: Tensor, kind: ElementType)
    requires GetTensorType(t.dtype) == Ok(kind) && Encode(t).outcome.Pass?
    requires |t.values| == Product(t.shape) && !WidthsAgree(kind) && Product(t.shape) >= 2
    ensures Decode(Encode(t).bytes) == Err(WidthMismatch)
  {
    EncodeLayout(t, kind);
    var data := Encode(t).bytes;
    assert data[..|data|] == data;
    LayoutWideMismatch(kind, t.shape, t.values, data);
  }

  /**
   * A one-element int64 or uint64 file comes back only when nothing follows
   * it: bytes appended after any saved int64 or uint64 file join the last
   * 8-byte read, which '<l' and '<L' refuse.
   */
  lemma WideTrailingFails(t: Tensor, kind: ElementType, extra: seq<byte>)
    requires GetTensorType(t.dtype) == Ok(kind) && Encode(t).outcome.Pass?
    requires |t.values| == Product(t.shape) && !WidthsAgree(kind) && extra != []
    ensures Decode(Encode(t).bytes + extra) == Err(WidthMismatch)
  {
    EncodeLayout(t, kind);
    EncodeSucceedsIff(t);
    var file := Encode(t).bytes;
    var data := file + extra;
    assert data[..|file|] == file;
    LayoutWideMismatch(kind, t.shape, t.values, data);
  }

  /**
   * An input that starts with the saved layout of an int64 or uint64 tensor
   * fails to load with WidthMismatch when the tensor has two or more elements,
   * or when any byte follows the layout.
   */
  lemma LayoutWideMismatch(kind: ElementType, shape: seq<nat>, values: seq<Scalar>, data: seq<byte>)
    requires Fitting(kind, shape, values)
    requires |Layout(kind, shape, values)| <= |data| && data[..|Layout(kind, shape, values)|] == Layout(kind, shape, values)
    requires |values| == Product(shape) && !WidthsAgree(kind) && Product(shape) >= 1
    requires Product(shape) >= 2 || |data| > |Layout(kind, shape, values)|
    ensures Decode(data) == Err(WidthMismatch)
  {
    var n := |shape|;
    var f := StructFormat(kind);
    LayoutHeader(kind, shape, values, data);
    LayoutShape(kind, shape, values, data);
    WidthsAgreeExceptLong(kind);
    PackedLength(f, values, 0, |values|);
    SpanIsProduct(Size(f), |values|);
    WideBodyMismatch(data, kind, n, shape);
    DecodeAfterHeader(data, kind, n);
  }

  /** For int64 and uint64, a body with more than 4 bytes after the shape fails with WidthMismatch. */
  lemma WideBodyMismatch(data: seq<byte>, kind: ElementType, n: nat, shape: seq<nat>)
    requires kind in All && !WidthsAgree(kind) && DecodeShape(data, 8, n, []) == Ok(shape)
    requires Product(shape) >= 1 && 8 + 4 * n + 4 < |data|
    ensures DecodeBody(data, kind, n) == Err(WidthMismatch)
  {
    WidthsAgreeExceptLong(kind);
    WideReadFails(StructFormat(kind), Width(kind), data, 8 + 4 * n, Product(shape));
    DecodeBodyAt(data, kind, n, shape, 8 + 4 * n);
  }

  /** A saved file cut inside its 8-byte header is rejected with Truncated. */
  lemma HeaderCut(t: Tensor, kind: ElementType, full: seq<byte>, m: nat)
    requires Saved(t, kind) && full == Layout(kind, t.shape, t.values) && 2 <= m < 8
    ensures Decode(full[..m]) == Err(Truncated)
  {
    var data := full[..m];
    assert full[..|full|] == full;
    LayoutParts(kind, t.shape, t.values, full);
    assert data[..2] == full[..2];
    if m >= 4 {
      assert data[2..4] == full[2..4];
      assert kind in All;
    }
    HeaderTruncated(data);
  }

  /**
   * An input whose header and shape load, and which is exactly as long as
   * its header, dimensions and elements, is rejected with Truncated when it
   * is cut anywhere after its header.
   */
  lemma CutAfterHeader(full: seq<byte>, kind: ElementType, n: nat, shape: seq<nat>, m: nat)
    requires 8 <= m < |full| && kind != Special && WidthsAgree(kind)
    requires DecodeHeader(full) == Ok(Header(kind, n)) && DecodeShape(full, 8, n, []) == Ok(shape)
    requires |full| == 8 + 4 * n + Span(Width(kind), Product(shape))
    ensures Decode(full[..m]) == Err(Truncated)
  {
    var data := full[..m];
    PrefixAgrees(full, m, []);
    assert data == full[..m] + [];
    HeaderLocal(full, data);
    if m < 8 + 4 * n {
      ShapeTruncated(data, kind, n);
    } else {
      SpanIsProduct(4, n);
      ShapeLocal(full, data, 8, n, []);
      DecodeAfterHeader(data, kind, n);
      BodyTruncatedIff(data, kind, n, shape);
    }
  }

  /** A saved file cut after its header but before its last element is rejected with Truncated. */
  lemma BodyCut(t: Tensor, kind: ElementType, full: seq<byte>, m: nat)
    requires Saved(t, kind) && full == Layout(kind, t.shape, t.values)
    requires |t.values| == Product(t.shape) && WidthsAgree(kind)
    requires 8 <= m < |full|
    ensures Decode(full[..m]) == Err(Truncated)
  {
    assert full[..|full|] == full;
    LayoutHeader(kind, t.shape, t.values, full);
    LayoutShape(kind, t.shape, t.values, full);
    PackedAllLength(StructFormat(kind), t.values);
    CutAfterHeader(full, kind, |t.shape|, t.shape, m);
  }

  /**
   * For a type whose format packs its declared width, every proper prefix of
   * a saved file is rejected: with BadMagic when it is shorter than the
   * magic, and with Truncated otherwise.
   */
  lemma TruncatedFileRejected(t: Tensor, kind: ElementType, m: nat)
    requires GetTensorType(t.dtype) == Ok(kind) && Encode(t).outcome.Pass?
    requires |t.values| == Product(t.shape) && WidthsAgree(kind)
    requires m < |Encode(t).bytes|
    ensures Decode(Encode(t).bytes[..m]) == Err(if m < 2 then BadMagic else Truncated)
  {
    EncodeLayout(t, kind);
    if m < 2 {
      BadMagicIff(Encode(t).bytes[..m]);
    } else if m < 8 {
      HeaderCut(t, kind, Encode(t).bytes, m);
    } else {
      BodyCut(t, kind, Encode(t).bytes, m);
    }
  }

  /**
   * An element loop that reads more bytes per element than its format packs
   * succeeds only on a single element that ends the input: the read must come
   * back short, with exactly the format's size.
   */
  lemma WideValuesOk(f: Format, w: nat, data: seq<byte>, pos: nat, left: nat, acc: seq<Scalar>)
    requires w > Size(f) && left >= 1 && DecodeValues(f, w, data, pos, left, acc).Ok?
    ensures left == 1 && |data| == pos + Size(f)
  {
    var chunk := Read(data, pos, w);
    assert |chunk| == Size(f);
    assert |data| == pos + Size(f);
    assert Read(data, pos + Size(f), w) == [];
    if left > 1 {
      assert false;
    }
  }

  /** An element loop reading wider than its format fails on an input shorter than its packed elements. */
  lemma WidePayloadFails(f: Format, w: nat, data: seq<byte>, pos: nat, left: nat)
    requires w > Size(f) && pos <= |data| < pos + Span(Size(f), left)
    ensures DecodeValues(f, w, data, pos, left, []).Err?
  {
    SpanIsProduct(Size(f), left);
    if DecodeValues(f, w, data, pos, left, []).Ok? {
      WideValuesOk(f, w, data, pos, left, []);
      assert false;
    }
  }

  /** For int64 and uint64, the body load fails on an input that ends before the last 4-byte element. */
  lemma WideBodyFails(data: seq<byte>, kind: ElementType, n: nat, shape: seq<nat>)
    requires kind in All && !WidthsAgree(kind) && DecodeShape(data, 8, n, []) == Ok(shape)
    requires 8 + 4 * n <= |data| < 8 + 4 * n + Span(Size(StructFormat(kind)), Product(shape))
    ensures DecodeBody(data, kind, n).Err?
  {
    DecodeBodyAt(data, kind, n, shape, 8 + 4 * n);
    WidthsAgreeExceptLong(kind);
    WidePayloadFails(StructFormat(kind), Width(kind), data, 8 + 4 * n, Product(shape));
  }

  /**
   * For int64 and uint64, an input whose header and shape load, and which is
   * exactly as long as its header, dimensions and 4-byte elements, is rejected
   * with Truncated or WidthMismatch when it is cut anywhere after its header.
   */
  lemma CutAfterHeaderWide(full: seq<byte>, kind: ElementType, n: nat, shape: seq<nat>, m: nat)
    requires 8 <= m < |full| && kind in All && !WidthsAgree(kind)
    requires DecodeHeader(full) == Ok(Header(kind, n)) && DecodeShape(full, 8, n, []) == Ok(shape)
    requires |full| == 8 + 4 * n + Span(Size(StructFormat(kind)), Product(shape))
    ensures Decode(full[..m]).Err?
    ensures Decode(full[..m]).error == Truncated || Decode(full[..m]).error == WidthMismatch
  {
    var data := full[..m];
    PrefixAgrees(full, m, []);
    assert data == full[..m] + [];
    HeaderLocal(full, data);
    DecodeAfterHeader(data, kind, n);
    if m < 8 + 4 * n {
      ShapeTruncated(data, kind, n);
    } else {
      SpanIsProduct(4, n);
      ShapeLocal(full, data, 8, n, []);
      WideBodyFails(data, kind, n, shape);
    }
  }

  /** For int64 and uint64, a saved file cut after its header is rejected with Truncated or WidthMismatch. */
  lemma BodyCutWide(t: Tensor, kind: ElementType, full: seq<byte>, m: nat)
    requires Saved(t, kind) && full == Layout(kind, t.shape, t.values)
    requires |t.values| == Product(t.shape) && !WidthsAgree(kind)
    requires 8 <= m < |full|
    ensures Decode(full[..m]).Err?
    ensures Decode(full[..m]).error == Truncated || Decode(full[..m]).error == WidthMismatch
  {
    assert full[..|full|] == full;
    LayoutHeader(kind, t.shape, t.values, full);
    LayoutShape(kind, t.shape, t.values, full);
    PackedAllLength(StructFormat(kind), t.values);
    CutAfterHeaderWide(full, kind, |t.shape|, t.shape, m);
  }

  /**
   * Every proper prefix of a saved file, of any type, fails to load: with
   * BadMagic when it is shorter than the magic, and otherwise with Truncated,
   * or, for int64 and uint64, possibly with WidthMismatch.
   */
  lemma TruncatedFileFails(t: Tensor, kind: ElementType, m: nat)
    requires GetTensorType(t.dtype) == Ok(kind) && Encode(t).outcome.Pass?
    requires |t.values| == Product(t.shape)
    requires m < |Encode(t).bytes|
    ensures Decode(Encode(t).bytes[..m]).Err?
    ensures m < 2 ==> Decode(Encode(t).bytes[..m]).error == BadMagic
    ensures m >= 2 ==> Decode(Encode(t).bytes[..m]).error == Truncated || Decode(Encode(t).bytes[..m]).error == WidthMismatch
  {
    if WidthsAgree(kind) {
      TruncatedFileRejected(t, kind, m);
    } else {
      EncodeLayout(t, kind);
      if m < 2 {
        BadMagicIff(Encode(t).bytes[..m]);
      } else if m < 8 {
        HeaderCut(t, kind, Encode(t).bytes, m);
      } else {
        BodyCutWide(t, kind, Encode(t).bytes, m);
      }
    }
  }

  /** The int32 tensor [1, -2, 3]. */
  const Int32Sample: Tensor := Tensor("int32", [3], [IntVal(1), IntVal(-2), IntVal(3)])

  /** Its file: "Cc", code 3, one dimension of 3, then 1, -2 and 3 as little-endian int32. */
  const Int32SampleFile: seq<byte> :=
    [0x43, 0x63, 3, 0, 1, 0, 0, 0, 3, 0, 0, 0, 1, 0, 0, 0, 0xFE, 0xFF, 0xFF, 0xFF, 3, 0, 0, 0]

  /** struct.pack('<I', v) for the sample's dimension count and dimension. */
  lemma SampleDimPacks()
    ensures Pack(UnsignedInt, IntVal(1)) == Ok([1, 0, 0, 0]) && Pack(UnsignedInt, IntVal(3)) == Ok([3, 0, 0, 0])
  {
    PackUInt(1);
    PackUInt(3);
    assert LE(1, 4) == [1, 0, 0, 0] && LE(3, 4) == [3, 0, 0, 0];
  }

  /** struct.pack('<i', 1) and struct.pack('<i', 3). */
  lemma SamplePositivePacks()
    ensures Pack(Int, IntVal(1)) == Ok([1, 0, 0, 0]) && Pack(Int, IntVal(3)) == Ok([3, 0, 0, 0])
  {
    ModulusIsPow(Int);
    assert LE(1, 4) == [1, 0, 0, 0] && LE(3, 4) == [3, 0, 0, 0];
  }

  /** The little-endian bytes of the two's complement of -2. */
  lemma MinusTwoBytes()
    ensures LE(0xFFFF_FFFE, 4) == [0xFE, 0xFF, 0xFF, 0xFF]
  {
  }

  /** struct.pack('<i', -2) is the two's complement of -2. */
  lemma SampleNegativePack()
    ensures Pack(Int, IntVal(-2)) == Ok([0xFE, 0xFF, 0xFF, 0xFF])
  {
    ModulusIsPow(Int);
    assert Pack(Int, IntVal(-2)) == Ok(LE(0xFFFF_FFFE, 4));
    MinusTwoBytes();
  }

  /** The dimension loop of save on the sample's shape [3]. */
  lemma SampleDims(file: seq<byte>)
    ensures WriteAll(UnsignedInt, [IntVal(3)], 0, file) == Written(file + [3, 0, 0, 0], Pass)
  {
    SampleDimPacks();
    assert WriteAll(UnsignedInt, [IntVal(3)], 0, file) == WriteAll(UnsignedInt, [IntVal(3)], 1, file + [3, 0, 0, 0]);
  }

  /** The element loop of save on the sample's values. */
  lemma SampleValues(file: seq<byte>)
    ensures WriteAll(Int, Int32Sample.values, 0, file)
      == Written(file + [1, 0, 0, 0] + [0xFE, 0xFF, 0xFF, 0xFF] + [3, 0, 0, 0], Pass)
  {
    var xs := Int32Sample.values;
    SamplePositivePacks();
    SampleNegativePack();
    assert WriteAll(Int, xs, 0, file) == WriteAll(Int, xs, 1, file + [1, 0, 0, 0]);
    assert WriteAll(Int, xs, 1, file + [1, 0, 0, 0])
      == WriteAll(Int, xs, 2, file + [1, 0, 0, 0] + [0xFE, 0xFF, 0xFF, 0xFF]);
    assert WriteAll(Int, xs, 2, file + [1, 0, 0, 0] + [0xFE, 0xFF, 0xFF, 0xFF])
      == WriteAll(Int, xs, 3, file + [1, 0, 0, 0] + [0xFE, 0xFF, 0xFF, 0xFF] + [3, 0, 0, 0]);
  }

  /** The sample's file, field by field. */
  lemma SampleFields()
    ensures [0x43, 0x63] + [3, 0] + [1, 0, 0, 0] + [3, 0, 0, 0] + [1, 0, 0, 0] + [0xFE, 0xFF, 0xFF, 0xFF] + [3, 0, 0, 0]
      == Int32SampleFile
  {
  }

  /** The sample's dtype names row 3 of the registry, and its header starts "Cc", 3 as a uint16. */
  lemma SampleHead()
    ensures GetTensorType("int32") == Ok(Int32)
    ensures Magic + LE(Code(Int32), 2) == [0x43, 0x63] + [3, 0]
  {
    assert Name(Byte) != "int32" && Name(Int8) != "int32" && Name(Int32) == "int32";
    assert Code(Int32) == 3;
    assert LE(3, 2) == [3, 0];
  }

  /** save writes the 24 bytes above for the sample. */
  lemma SampleEncodes()
    ensures Encode(Int32Sample) == Written(Int32SampleFile, Pass)
  {
    var t := Int32Sample;
    SampleHead();
    ProductSingle(3);
    assert Ints(t.shape) == [IntVal(3)];
    var head := Magic + LE(Code(Int32), 2);
    SampleDimPacks();
    var ndim := Pack(UnsignedInt, IntVal(|t.shape|)).value;
    SampleDims(head + ndim);
    SampleValues(WriteAll(UnsignedInt, Ints(t.shape), 0, head + ndim).bytes);
    SampleFields();
  }

  /** A shape of one dimension has as many elements as that dimension says. */
  lemma ProductSingle(d: nat)
    ensures Product([d]) == d
  {
    assert [d][..0] == [];
  }

  /** The round trip for int32, whose '<i' packs the declared 4 bytes. */
  lemma Int32RoundTrip(t: Tensor)
    requires GetTensorType(t.dtype) == Ok(Int32) && Encode(t).outcome.Pass? && |t.values| == Product(t.shape)
    ensures Decode(Encode(t).bytes) == Ok(t)
  {
    WidthsAgreeExceptLong(Int32);
    RoundTrip(t, Int32);
  }

  /** save writes the 24 bytes above for the sample, and load reads the sample back from them. */
  lemma Int32Example()
    ensures Encode(Int32Sample) == Written(Int32SampleFile, Pass)
    ensures Decode(Int32SampleFile) == Ok(Int32Sample)
  {
    SampleEncodes();
    SampleHead();
    ProductSingle(3);
    Int32RoundTrip(Int32Sample);
  }
}

=== FILE: save_properties.dfy ===
/**
 * What save writes: the layout of a complete file, its length, the bytes
 * already in the file when it stops early, and exactly when it succeeds.
 */
module SaveProperties {
  import opened Bytes
  import opened Results
  import opened Struct
  import opened DataType
  import opened Codec

  /** Every value of xs from index j up to k is in the range of format f. */
  predicate FitIn(f: Format, xs: seq<Scalar>, j: nat, k: nat)
    requires j <= k <= |xs|
  {
    forall i :: j <= i < k ==> Fits(f, xs[i])
  }

  /**
   * The packed bytes of the values of xs from index j up to k, one after
   * another: what a packing loop appends when none of them fails.
   */
  function Packed(f: Format, xs: seq<Scalar>, j: nat, k: nat): seq<byte>
    requires j <= k <= |xs| && FitIn(f, xs, j, k)
    decreases k - j
  {
    if j == k then [] else Pack(f, xs[j]).value + Packed(f, xs, j + 1, k)
  }

  /** Each packed value takes Size(f) bytes. */
  lemma {:induction false} PackedLength(f: Format, xs: seq<Scalar>, j: nat, k: nat)
    requires j <= k <= |xs| && FitIn(f, xs, j, k)
    ensures |Packed(f, xs, j, k)| == Span(Size(f), k - j)
    decreases k - j
  {
    if j < k {
      PackedLength(f, xs, j + 1, k);
    }
  }

  /** All the values of xs packed take Size(f) bytes each. */
  lemma PackedAllLength(f: Format, xs: seq<Scalar>)
    requires FitIn(f, xs, 0, |xs|)
    ensures |Packed(f, xs, 0, |xs|)| == Span(Size(f), |xs|)
  {
    PackedLength(f, xs, 0, |xs|);
  }

  /** Regrouping appends; a lemma of its own so the proofs about the packing loop need not prove sequence equality inline. */
  lemma Associative(a: seq<byte>, b: seq<byte>, c: seq<byte>)
    ensures a + b + c == a + (b + c)
  {
  }

  /** A packing loop in which every value fits appends the packed values and passes. */
  lemma {:induction false} WriteAllPacked(f: Format, xs: seq<Scalar>, j: nat, file: seq<byte>)
    requires j <= |xs| && FitIn(f, xs, j, |xs|)
    ensures WriteAll(f, xs, j, file) == Written(file + Packed(f, xs, j, |xs|), Pass)
    decreases |xs| - j
  {
    if j == |xs| {
      assert WriteAll(f, xs, j, file) == Written(file, Pass);
      assert Packed(f, xs, j, |xs|) == [];
    } else {
      var b := Pack(f, xs[j]).value;
      assert WriteAll(f, xs, j, file) == WriteAll(f, xs, j + 1, file + b);
      assert Packed(f, xs, j, |xs|) == b + Packed(f, xs, j + 1, |xs|);
      WriteAllPacked(f, xs, j + 1, file + b);
      Associative(file, b, Packed(f, xs, j + 1, |xs|));
    }
  }

  /**
   * A packing loop that meets a value out of range at index k stops there:
   * the file keeps the values before k, and the save fails with OutOfRange.
   */
  lemma {:induction false} WriteAllStops(f: Format, xs: seq<Scalar>, j: nat, k: nat, file: seq<byte>)
    requires j <= k < |xs| && FitIn(f, xs, j, k) && !Fits(f, xs[k])
    ensures WriteAll(f, xs, j, file) == Written(file + Packed(f, xs, j, k), Fail(OutOfRange))
    decreases k - j
  {
    if j == k {
      assert WriteAll(f, xs, j, file) == Written(file, Fail(OutOfRange));
      assert Packed(f, xs, j, k) == [];
    } else {
      var b := Pack(f, xs[j]).value;
      assert WriteAll(f, xs, j, file) == WriteAll(f, xs, j + 1, file + b);
      assert Packed(f, xs, j, k) == b + Packed(f, xs, j + 1, k);
      WriteAllStops(f, xs, j + 1, k, file + b);
      Associative(file, b, Packed(f, xs, j + 1, k));
    }
  }

  /** The dimension count and the dimensions go in as uint32: struct.pack('<I', v) is the 4-byte little-endian v. */
  lemma PackUInt(v: nat)
    requires v < Pow256(4)
    ensures Pack(UnsignedInt, IntVal(v)) == Ok(LE(v, 4))
  {
    ModulusIsPow(UnsignedInt);
  }

  /** Every dimension of the shape fits a uint32. */
  predicate DimsFit(shape: seq<nat>)
  {
    forall i :: 0 <= i < |shape| ==> shape[i] < Pow256(4)
  }

  lemma DimsFitIff(shape: seq<nat>)
    ensures FitIn(UnsignedInt, Ints(shape), 0, |shape|) <==> DimsFit(shape)
  {
    ModulusIsPow(UnsignedInt);
  }

  /**
   * save succeeds exactly when the dtype is registered, the number of
   * dimensions and every dimension fit a uint32, the tensor has at least one
   * element, and every element fits the type's struct format. An unknown
   * dtype fails with NameUndefined; a tensor with no elements whose
   * dimensions were written fails with np.nditer's EmptyIteration; any other
   * failure is struct.pack's OutOfRange.
   */
  lemma EncodeSucceedsIff(t: Tensor)
    ensures Encode(t).outcome.Pass? <==>
      GetTensorType(t.dtype).Ok? && |t.shape| < Pow256(4) && DimsFit(t.shape) && Product(t.shape) != 0
      && FitIn(StructFormat(GetTensorType(t.dtype).value), t.values, 0, |t.values|)
    ensures Encode(t).outcome.Fail? ==>
      Encode(t).outcome.error ==
        (if GetTensorType(t.dtype).Err? then NameUndefined
         else if |t.shape| < Pow256(4) && DimsFit(t.shape) && Product(t.shape) == 0 then EmptyIteration
         else OutOfRange)
  {
    DimsFitIff(t.shape);
    ModulusIsPow(UnsignedInt);
  }

  /** A file that starts with "Cc" still does after more bytes are appended. */
  lemma MagicKept(file: seq<byte>, more: seq<byte>)
    requires |file| >= 2 && file[..2] == Magic
    ensures (file + more)[..2] == Magic
  {
    assert (file + more)[..2] == file[..2];
  }

  /** A file extends the file it was written over, so it starts with "Cc" when that one does. */
  lemma MagicExtended(file: seq<byte>, start: seq<byte>)
    requires |file| >= |start| >= 2 && file[..|start|] == start && start[..2] == Magic
    ensures file[..2] == Magic
  {
    assert file[..2] == file[..|start|][..2];
  }

  /** save writes "Cc" first, whatever happens after. */
  lemma EncodeStartsWithMagic(t: Tensor)
    ensures |Encode(t).bytes| >= 2 && Encode(t).bytes[..2] == Magic
  {
    match GetTensorType(t.dtype)
    case Err(_) =>
    case Ok(kind) =>
      var head := Magic + LE(Code(kind), 2);
      MagicKept(Magic, LE(Code(kind), 2));
      match Pack(UnsignedInt, IntVal(|t.shape|))
      case Err(_) =>
      case Ok(ndim) =>
        MagicKept(head, ndim);
        var dims := WriteAll(UnsignedInt, Ints(t.shape), 0, head + ndim);
        MagicExtended(dims.bytes, head + ndim);
        if dims.outcome.Pass? {
          var all := WriteAll(StructFormat(kind), t.values, 0, dims.bytes);
          MagicExtended(all.bytes, dims.bytes);
        }
  }

  /** An unknown dtype leaves exactly "Cc" in the file: the magic is written before the type is looked up. */
  lemma UnknownDtypeLeavesMagic(t: Tensor)
    ensures GetTensorType(t.dtype).Err? <==> Encode(t) == Written(Magic, Fail(NameUndefined))
  {
    if Encode(t) == Written(Magic, Fail(NameUndefined)) && GetTensorType(t.dtype).Ok? {
      EncodeSucceedsIff(t);
      assert false;
    }
  }

  /**
   * The file of a complete save: "Cc", the type code as a uint16, the
   * dimension count and the dimensions as uint32, then every element packed
   * with the type's struct format.
   */
  function Layout(kind: ElementType, shape: seq<nat>, values: seq<Scalar>): seq<byte>
    requires kind != Special && |shape| < Pow256(4)
    requires FitIn(UnsignedInt, Ints(shape), 0, |shape|) && FitIn(StructFormat(kind), values, 0, |values|)
  {
    Magic + LE(Code(kind), 2) + LE(|shape|, 4)
    + Packed(UnsignedInt, Ints(shape), 0, |shape|) + Packed(StructFormat(kind), values, 0, |values|)
  }

  /** A complete save writes its tensor in the layout above. */
  lemma EncodeLayout(t: Tensor, kind: ElementType)
    requires GetTensorType(t.dtype) == Ok(kind) && Encode(t).outcome.Pass?
    ensures |t.shape| < Pow256(4) && DimsFit(t.shape) && FitIn(UnsignedInt, Ints(t.shape), 0, |t.shape|)
    ensures FitIn(StructFormat(kind), t.values, 0, |t.values|)
    ensures Encode(t).bytes == Layout(kind, t.shape, t.values)
  {
    EncodeSucceedsIff(t);
    DimsFitIff(t.shape);
    PackUInt(|t.shape|);
    var head := Magic + LE(Code(kind), 2) + LE(|t.shape|, 4);
    WriteAllPacked(UnsignedInt, Ints(t.shape), 0, head);
    WriteAllPacked(StructFormat(kind), t.values, 0, head + Packed(UnsignedInt, Ints(t.shape), 0, |t.shape|));
  }

  /**
   * A save of a tensor with no elements stops at np.nditer: the file holds the
   * header and the dimensions, and no element.
   */
  lemma EncodeEmptyLayout(t: Tensor, kind: ElementType)
    requires GetTensorType(t.dtype) == Ok(kind) && Encode(t).outcome == Fail(EmptyIteration)
    ensures Product(t.shape) == 0 && |t.shape| < Pow256(4) && FitIn(UnsignedInt, Ints(t.shape), 0, |t.shape|)
    ensures Encode(t).bytes == Magic + LE(Code(kind), 2) + LE(|t.shape|, 4) + Packed(UnsignedInt, Ints(t.shape), 0, |t.shape|)
  {
    EncodeSucceedsIff(t);
    DimsFitIff(t.shape);
    PackUInt(|t.shape|);
    var head := Magic + LE(Code(kind), 2) + LE(|t.shape|, 4);
    WriteAllPacked(UnsignedInt, Ints(t.shape), 0, head);
  }

  /** The layout takes 8 + 4 * n + size * s bytes, with s the size of the struct format. */
  lemma LayoutLength(kind: ElementType, shape: seq<nat>, values: seq<Scalar>)
    requires kind != Special && |shape| < Pow256(4)
    requires FitIn(UnsignedInt, Ints(shape), 0, |shape|) && FitIn(StructFormat(kind), values, 0, |values|)
    ensures |Layout(kind, shape, values)| == 8 + 4 * |shape| + |values| * Size(StructFormat(kind))
  {
    PackedLength(UnsignedInt, Ints(shape), 0, |shape|);
    PackedLength(StructFormat(kind), values, 0, |values|);
    SpanIsProduct(4, |shape|);
    SpanIsProduct(Size(StructFormat(kind)), |values|);
  }

  /**
   * A complete save is 8 + 4 * n + size * s bytes long, with s the size of
   * the struct format: 4 for int64 and uint64, not their declared 8.
   */
  lemma EncodeLength(t: Tensor, kind: ElementType)
    requires GetTensorType(t.dtype) == Ok(kind) && Encode(t).outcome.Pass?
    ensures |Encode(t).bytes| == 8 + 4 * |t.shape| + |t.values| * Size(StructFormat(kind))
  {
    EncodeLayout(t, kind);
    LayoutLength(kind, t.shape, t.values);
  }
}

=== FILE: struct.dfy ===
/**
 * The part of Python's struct module the container relies on: the format
 * letters of the registry, their standard sizes under the '<' prefix, and
 * what pack and unpack do with them.
 */
module Struct {
  import opened Bytes
  import opened Results

  /** A struct format letter; each is used with the '<' prefix. */
  datatype Format =
    | UnsignedChar   // 'B'
    | SignedChar     // 'b'
    | UnsignedShort  // 'H'
    | Int            // 'i'
    | UnsignedInt    // 'I'
    | Long           // 'l'
    | UnsignedLong   // 'L'
    | Float          // 'f'
    | Double         // 'd'
    | Boolean        // '?'

  /** How a format reads its bytes. */
  datatype Category = Unsigned | Signed | FloatWord | Truth

  function CategoryOf(f: Format): Category
  {
    match f
    case UnsignedChar => Unsigned
    case UnsignedShort => Unsigned
    case UnsignedInt => Unsigned
    case UnsignedLong => Unsigned
    case SignedChar => Signed
    case Int => Signed
    case Long => Signed
    case Float => FloatWord
    case Double => FloatWord
    case Boolean => Truth
  }

  /**
   * struct.calcsize of the format with the '<' prefix. With '<' the sizes are
   * the standard ones, so 'l' and 'L' take 4 bytes, like 'i' and 'I'.
   */
  function Size(f: Format): (n: nat)
    ensures 1 <= n <= 8
  {
    match f
    case UnsignedChar => 1
    case SignedChar => 1
    case Boolean => 1
    case UnsignedShort => 2
    case Int => 4
    case UnsignedInt => 4
    case Long => 4
    case UnsignedLong => 4
    case Float => 4
    case Double => 8
  }

  /** 256^Size(f), the number of bit patterns of the format, written out. */
  function Modulus(f: Format): (n: nat)
    ensures n >= 256
  {
    match f
    case UnsignedChar => 0x100
    case SignedChar => 0x100
    case Boolean => 0x100
    case UnsignedShort => 0x1_0000
    case Int => 0x1_0000_0000
    case UnsignedInt => 0x1_0000_0000
    case Long => 0x1_0000_0000
    case UnsignedLong => 0x1_0000_0000
    case Float => 0x1_0000_0000
    case Double => 0x1_0000_0000_0000_0000
  }

  lemma ModulusIsPow(f: Format)
    ensures Modulus(f) == Pow256(Size(f))
  {
    assert Pow256(1) == 0x100;
    assert Pow256(2) == 0x1_0000;
    assert Pow256(4) == 0x1_0000_0000;
    assert Pow256(8) == 0x1_0000_0000_0000_0000;
  }

  /**
   * One element as the codec sees it: an integer, the bit pattern of a
   * floating-point number (IEEE-754 is not modelled), or a truth value.
   */
  datatype Scalar = IntVal(i: int) | FloatBits(bits: nat) | BoolVal(b: bool)

  /** The range of a format: 0 <= v < 256^n unsigned, -256^n/2 <= v < 256^n/2 signed. */
  predicate Fits(f: Format, x: Scalar)
  {
    var n := Modulus(f);
    match x
    case IntVal(v) =>
      (CategoryOf(f) == Unsigned && 0 <= v < n) || (CategoryOf(f) == Signed && -(n / 2) <= v < n / 2)
    case FloatBits(b) => CategoryOf(f) == FloatWord && b < n
    case BoolVal(_) => CategoryOf(f) == Truth
  }

  /**
   * struct.pack: the bytes of x in format f, two's complement for the signed
   * formats, 0x00 or 0x01 for '?'; a value out of the format's range fails.
   */
  function Pack(f: Format, x: Scalar): (r: Result<seq<byte>>)
    ensures r.Ok? <==> Fits(f, x)
    ensures r.Err? ==> r.error == OutOfRange
    ensures r.Ok? ==> |r.value| == Size(f)
  {
    ModulusIsPow(f);
    var n := Modulus(f);
    match (CategoryOf(f), x)
    case (Unsigned, IntVal(v)) =>
      if 0 <= v < n then Ok(LE(v, Size(f))) else Err(OutOfRange)
    case (Signed, IntVal(v)) =>
      if -(n / 2) <= v < n / 2 then Ok(LE(if v < 0 then v + n else v, Size(f))) else Err(OutOfRange)
    case (FloatWord, FloatBits(b)) =>
      if b < n then Ok(LE(b, Size(f))) else Err(OutOfRange)
    case (Truth, BoolVal(b)) =>
      Ok([if b then 1 else 0])
    case _ =>
      Err(OutOfRange)
  }

  /**
   * struct.unpack: it needs exactly Size(f) bytes; a shorter buffer is a
   * truncated read, a longer one a buffer of the wrong width. '?' reads any
   * non-zero byte as true.
   */
  function Unpack(f: Format, chunk: seq<byte>): (r: Result<Scalar>)
    ensures r.Ok? <==> |chunk| == Size(f)
    ensures r.Err? ==> r.error == (if |chunk| < Size(f) then Truncated else WidthMismatch)
    ensures r.Ok? ==> Fits(f, r.value)
  {
    if |chunk| < Size(f) then Err(Truncated)
    else if |chunk| > Size(f) then Err(WidthMismatch)
    else
      ModulusIsPow(f);
      var u := FromLE(chunk);
      var n := Modulus(f);
      match CategoryOf(f)
      case Unsigned => Ok(IntVal(u))
      case Signed => Ok(IntVal(if u >= n / 2 then u - n else u))
      case FloatWord => Ok(FloatBits(u))
      case Truth => Ok(BoolVal(u != 0))
  }

  /** Unpacking what was packed gives the value back. */
  lemma UnpackOfPack(f: Format, x: Scalar)
    requires Fits(f, x)
    ensures Unpack(f, Pack(f, x).value) == Ok(x)
  {
    ModulusIsPow(f);
  }

  /**
   * Packing what was unpacked gives the same bytes back, except for '?',
   * whose non-zero bytes all come back as 0x01.
   */
  lemma PackOfUnpack(f: Format, chunk: seq<byte>)
    requires Unpack(f, chunk).Ok?
    ensures CategoryOf(f) != Truth ==> Pack(f, Unpack(f, chunk).value) == Ok(chunk)
    ensures CategoryOf(f) == Truth ==> Pack(f, Unpack(f, chunk).value) == Ok([if chunk[0] == 0 then 0 else 1])
  {
    LEOfFromLE(chunk);
    ModulusIsPow(f);
    if CategoryOf(f) == Truth {
      assert f == Boolean;
      assert FromLE(chunk) == chunk[0] by { assert chunk[1..] == []; }
    }
  }
}
